=== FILE: README.md ===
# Opioid education chatbot — a Dafny model

The system is a small chat application about opioids. A Flask server answers
`POST /ask` with `{"answer": ...}`. It refuses blank questions, refuses
questions that mention none of a fixed list of opioid-related topics, and
forwards the rest to a hosted Llama 3 model. The server strips every `*` from
the model's answer. A browser widget (`static/script.js`) keeps the chat
transcript. It shows a "Thinking..." placeholder while a request is in
flight. A question asked by voice gets its placeholder and its answer spoken
aloud; a typed question is answered silently. It also offers a voice mode:
the page says "Listening...", beeps, and then runs one speech recognition
session. Tab moves focus around the widget's controls, and the
buttons announce their names.

The model has seven modules:

- `Wrappers` holds `Option` and `Result`.
- `Strings` holds white space, stripping, ASCII case mapping, substring
  search and character removal.
- `Transcript` holds the chat log and the placeholder removal.
- `Navigation` holds the Tab cycle and the spoken control labels.
- `Widget` holds the page as a pure transition system. `Step(state, event)`
  returns the next state and the effects the page issues: speech, beep,
  recognition start and stop, alert, request.
- `WidgetProperties` holds what the widget's handlers guarantee.
- `Relevance` and `Backend` hold the server's topic filter, the routing in
  `ask`, and the answer extraction.

The browser's speech synthesizer is modelled as a FIFO queue of utterances.
`SpeechEnd` means the head utterance finished, and its `onend` handler runs
then. Timers, network replies and browser callbacks are events. Each request
in flight is remembered with the voice flag it captured. `FetchOk` and
`FetchFail` settle a chosen one, so replies may arrive in any order. A Tab
press queues its control's announcement, and `AnnounceTimer` (the 200 ms
timer firing) speaks the oldest one.

Two behaviours of the code are modelled as written and proved as such:

- Relevance is plain substring matching. "What is an opioid?" is not
  relevant, because the list has "opioids", "opioid crisis", "opiates" and
  "opium" but not "opioid".
- When two requests overlap, the first reply removes the second question's
  placeholder. The first question's placeholder then stays in the log for
  good.

Some facts about the code that shape the model:

- The placeholder and listening texts are "Thinking..." and "Listening...",
  each ending in three full stops.
- Enter and Tab reach their handlers only while the text field has focus,
  because both listeners are registered on the text field.
- A click on the disabled send button does nothing, and the disabled button cannot take focus, so a Tab or a `Focused` event aimed at it leaves focus where it was.

## Model

| member | source | states |
|---|---|---|
| Strings.Trim | static/script.js:36 | `trim`/`strip` return the slice between a blank prefix and a blank suffix, with no white space at either end; the result is empty exactly when the text is all white space (JavaScript and Python white-space sets given by code point) |
| Strings.Lower | llama3chatbotopioid.py:41 | `lower()` keeps the length, maps every character through the ASCII case map, and leaves no upper-case letter |
| Strings.Contains | llama3chatbotopioid.py:41 | the `in` test on strings holds exactly when the needle occurs as a contiguous slice at some position |
| Strings.Without | llama3chatbotopioid.py:72 | `replace(c, "")` leaves no `c`, never lengthens the text, and keeps the count of every other character |
| Transcript.RemovePlaceholder | static/script.js:28-33 | The result is the log without its last entry when that entry is the bot's "Thinking...", and the log unchanged otherwise. |
| Transcript.RemovePlaceholderIdempotent | static/script.js:28-33 | removing twice equals removing once exactly when the log does not end with two placeholders, and always when no two placeholders are adjacent |
| Transcript.RemoveAfterUserMessage | static/script.js:38-41 | right after the user's message is appended, the removal in sendMessage finds nothing to remove |
| Navigation.IndexOf | static/script.js:140 | `indexOf` returns the first position holding the element, or -1 exactly when it is absent |
| Navigation.JsRemainder | static/script.js:141 | JavaScript's `%` is the remainder of division truncated toward zero: smaller than the divisor in size, zero or of the dividend's sign, and completing the truncated quotient to the dividend; on non-negative dividends it is the mathematical remainder |
| Navigation.NextIndex | static/script.js:141 | `(currentIndex + 1) % length` always lands inside the cycle; the last position and -1 both lead to position 0, and any other position goes to the next one |
| Navigation.NextControl | static/script.js:139-142 | the Tab target is always one of the four cycle controls |
| Navigation.NextControlIsSuccessor | static/script.js:139-143 | the index arithmetic gives the cycle input → send → voice → stop → input, and a control outside the cycle leads to the input |
| Navigation.CycleReturns | static/script.js:139-143 | four Tab moves return focus to the control it started on |
| Navigation.Label | static/script.js:119-125 | a control has a spoken label exactly when it is the send, voice or stop button |
| Navigation.LabelsDistinct | static/script.js:119-125 | the labels are "Send button.", "Voice button." and "Stop button.", no two controls share one, and the input has none |
| Navigation.TabAnnouncesButtonsOnly | static/script.js:119-145 | after a Tab move a label is announced exactly when focus does not wrap to the text input |
| Widget.SpeakResponse | static/script.js:67-77 | with synthesis, the text is queued with its end handler and the speaking flag is raised; without it nothing changes; no other part of the state changes |
| Widget.SpeakElementText | static/script.js:115-133 | Something is spoken exactly when synthesis exists and the control has a label; then the only effect is speaking that label and the queue gains it with no end handler; otherwise the state is unchanged; only the queue ever changes, so the speaking flag is left alone. |
| Widget.StopSpeaking | static/script.js:79-84 | while speaking, the queue is cancelled and the flag dropped; otherwise nothing happens |
| Widget.StartVoiceRecognition | static/script.js:86-108 | There is exactly one effect; recognition starts exactly when the browser supports it, and then the session is active; without support the state is unchanged and the effect is an alert; nothing but the session changes. |
| Widget.AppendMessage | static/script.js:13-26 | The log gains the message at its end; only the log, the queue and the speaking flag change; something is spoken exactly when a bot "Listening..." arrives in voice mode with synthesis, and then it is that text, queued with the handler that starts listening, with the flag raised; otherwise queue and flag are unchanged. |
| Widget.SendMessage | static/script.js:35-54 | blank text changes nothing; otherwise the log gains the user's text and the placeholder, the field is cleared, the placeholder is spoken only in voice mode (raising the speaking flag), the question is posted and recorded with its voice flag, and nothing else changes |
| Widget.Settle | static/script.js:56-62 | Settling the request at a position removes exactly that request from the pending list, keeping the others in order, removes a trailing placeholder, and changes nothing else. |
| Widget.ReplyArrived | static/script.js:56-60 | A reply to a pending request replaces a trailing placeholder with the bot's answer and removes exactly that request from the pending list; the answer is spoken exactly when its request was sent in voice mode and synthesis exists, after a "Listening..." answer in voice mode is first spoken with the listening handler; the speaking flag rises exactly when something is spoken; nothing else changes; a reply to an unknown request changes nothing. |
| Widget.RequestFailed | static/script.js:61-64 | A failure of a pending request replaces a trailing placeholder with "Error: Could not get a response.", removes exactly that request from the pending list, issues no effect, and changes nothing else. |
| Widget.UtteranceEnded | static/script.js:70-73 | The head utterance leaves the queue; the speaking flag drops when it carried a speakResponse handler and is kept otherwise; an utterance without the listening handler issues no effect and leaves the recognition session alone; recognition starts exactly when it carried the listening handler and the browser supports recognition; nothing but the queue, the flag and the session changes. |
| Widget.Heard | static/script.js:93-98 | a result during an active session leaves exactly the state and effects of sendMessage(text, true), followed by stopping the session and leaving voice mode |
| Widget.NotHeard | static/script.js:100-103 | a recognition error appends the apology, ends the session and voice mode, speaks nothing, and changes nothing else |
| Widget.FocusControl | static/script.js:170-171 | Focus moves to the control and only the focus and the queue change; something is spoken exactly when synthesis exists and the control is the voice or stop button. |
| Widget.HandleTab | static/script.js:135-147 | Focus moves to the cycle successor, whose focus handler runs, unless that successor is the disabled send button, which cannot take focus, and then focus stays put; either way the successor's announcement is queued behind any still due, and nothing is spoken at the Tab press itself. |
| Widget.Announce | static/script.js:145 | When the oldest announcement timer fires, that announcement leaves the queue of due announcements and its control's label is spoken as speakElementText does; with none due nothing happens. |
| Widget.ClickSend | static/script.js:156-160 | The button is disabled afterwards; a disabled button ignores the click; a blank field only disables it; otherwise the only effect is posting the field's text, the log gains the text and the placeholder, the request is pending without voice, the field is cleared, and nothing else changes. |
| Widget.Step | static/script.js:149-171 | no event changes the browser's capabilities |
| WidgetProperties.InitialValid | static/script.js:8-11 | the freshly loaded page satisfies the widget invariant |
| WidgetProperties.StepPreservesValid | static/script.js:13-171 | every event keeps the invariant: no two adjacent placeholders, and only the "Listening..." utterance carries the handler that starts recognition |
| WidgetProperties.RunPreservesValid | static/script.js:13-171 | every run of events keeps the invariant |
| WidgetProperties.ReachableRemovalIdempotent | static/script.js:28-33 | in every state reachable from page load, removing the placeholder twice equals removing it once |
| WidgetProperties.StepExtendsTranscript | static/script.js:13-64 | no event edits an earlier message: the log only grows, after at most dropping a trailing placeholder |
| WidgetProperties.BlankSendIgnored | static/script.js:36 | sendMessage changes nothing and issues nothing exactly when the text is blank |
| WidgetProperties.BlankClickOnlyDisables | static/script.js:156-160 | clicking send with a blank field only disables the button |
| WidgetProperties.EnterIsSendClick | static/script.js:162-167 | Enter in the text field does exactly what a click on the send button does |
| WidgetProperties.TypedTurn | static/script.js:35-60 | a successful typed turn leaves the log plus the question and the answer: the turn's own placeholder and request are gone, and earlier ones are untouched; only the post is issued, and the answer is not spoken |
| WidgetProperties.FailedTurn | static/script.js:61-64 | a failed typed turn leaves the log plus the question and the fixed error message, and nothing is spoken |
| WidgetProperties.ErrorsNeverSpoken | static/script.js:61-64 | in any state a failed request issues no effect and leaves the speech queue and flag alone |
| WidgetProperties.SendTwice | static/script.js:35-46 | two questions sent one after the other, with the button re-enabled in between, leave each question followed by a placeholder and both requests pending |
| WidgetProperties.RepliesAfterTwoSends | static/script.js:56-58 | two replies after two overlapping sends: the first removes the second question's placeholder, so the first placeholder stays and both answers follow it |
| WidgetProperties.OverlappingSendsStrandPlaceholder | static/script.js:41-58 | when two requests overlap, the replies leave the first question's placeholder stranded between the two questions |
| WidgetProperties.StopWhenSilentIsNoop | static/script.js:79-84 | Stop while nothing is speaking changes nothing |
| WidgetProperties.StopCancelsHandlers | static/script.js:79-84 | Stop while speaking empties the queue and drops the flag, touches nothing else, and a later utterance end runs no handler |
| WidgetProperties.ListeningEndStartsRecognition | static/script.js:20-24 | when the "Listening..." utterance ends, the flag drops and the beep plays, then recognition starts or the alert shows |
| WidgetProperties.VoiceClickArmsListening | static/script.js:149-152 | the voice button sets voice mode and appends "Listening..." and queues it with the listening handler, without starting recognition yet |
| WidgetProperties.OnlySpeechEndStartsRecognition | static/script.js:86-104 | no event other than an utterance end ever starts recognition |
| WidgetProperties.RecognitionOnlyAfterListening | static/script.js:20-24 | in every valid state, recognition starts only when the "Listening..." utterance with the listening handler ends |
| WidgetProperties.HeardShape | static/script.js:93-98 | a heard non-blank text enters the log with a placeholder, becomes a voice request, ends voice mode and the session, and the placeholder is spoken |
| WidgetProperties.ReplyShape | static/script.js:56-60 | a reply is spoken exactly when its request captured the voice flag and synthesis exists; the other request entries and the voice state are kept |
| WidgetProperties.VoiceMatchesTyped | static/script.js:93-98 | a recognised text produces the same log as typing it and clicking send; only the request's voice flag differs |
| WidgetProperties.VoiceTurn | static/script.js:93-98 | a spoken turn leaves the log plus the heard text and the answer; voice mode has ended, and both the placeholder and the answer are spoken |
| WidgetProperties.RecognitionErrorApologises | static/script.js:100-103 | a recognition error appends the apology, ends voice mode and the session, and speaks nothing |
| WidgetProperties.ListeningAnswerArmsRecognition | static/script.js:20 | in voice mode, a server answer that reads "Listening..." arms recognition just as the voice button does |
| WidgetProperties.TabFromInput | static/script.js:135-147 | Tab in the text field focuses the send button, or keeps focus in the field while the button is disabled; it speaks nothing at once and leaves "Send button." due for the announcement timer. |
| WidgetProperties.EnterAfterBlockedTab | static/script.js:143-166 | Enter, then Tab while the button is still disabled, then the re-enable timer, then Enter again sends both questions, because focus never left the text field. |
| WidgetProperties.AnnounceSpeaksLabel | static/script.js:145 | When the timer fires for a labelled control, exactly its label is spoken and queued, whatever has happened to focus meanwhile. |
| WidgetProperties.StopBeforeAnnouncement | static/script.js:145 | Stop pressed between a Tab press and its timer does not cancel the announcement: it stays due, and when no earlier announcement was due "Send button." is spoken when the timer fires. |
| WidgetProperties.FocusAnnouncesVoiceAndStop | static/script.js:170-171 | Focusing a control speaks and queues exactly its label when it is the voice or stop button and synthesis exists, and speaks nothing otherwise; a disabled send button takes no focus and nothing changes. |
| Relevance.AnyTopicIn | llama3chatbotopioid.py:41 | `any(...)` over the topics holds exactly when some lowered topic occurs in the lowered text |
| Relevance.IsQuestionRelevant | llama3chatbotopioid.py:34-41 | a question is relevant exactly when some lowered topic of the fixed list occurs in the lowered question |
| Relevance.RelevanceIgnoresCase | llama3chatbotopioid.py:41 | two questions that agree up to ASCII case get the same verdict |
| Relevance.UppercaseKeepsRelevance | llama3chatbotopioid.py:41 | an upper-cased question gets the same verdict as the original |
| Relevance.RelevanceMonotone | llama3chatbotopioid.py:41 | a relevant question stays relevant with any text before and after it |
| Relevance.OpioidQuestionNotRelevant | llama3chatbotopioid.py:34-41 | "What is an opioid?" is not relevant |
| Relevance.OverdoseQuestionRelevant | llama3chatbotopioid.py:34-41 | "How do I recognize an OVERDOSE?" is relevant |
| Relevance.StripKeepsRelevance | llama3chatbotopioid.py:88-93 | stripping a question before the check never changes the verdict |
| Backend.StripStars | llama3chatbotopioid.py:72 | the answer has no `*`, is no longer than the content, and keeps every other character's count |
| Backend.StripStarsIdempotent | llama3chatbotopioid.py:72 | stripping stars twice is stripping once, and stripping changes nothing exactly when there is no `*` |
| Backend.StripStarsKeepsOrder | llama3chatbotopioid.py:72 | Star removal distributes over concatenation, drops a lone `*` and keeps any other lone character, so it keeps the order of the characters it keeps. |
| Backend.RawContent | llama3chatbotopioid.py:72 | the extracted text is either the default "No response" or the content of the first choice's message |
| Backend.ExtractAnswer | llama3chatbotopioid.py:72 | extraction fails exactly when the raw read raises; a result has no `*` and is no longer than the raw content |
| Backend.ExtractionOutcomes | llama3chatbotopioid.py:72 | a missing `choices`, `message` or `content` yields "No response"; a null on the path or an empty list raises; present content comes back without stars |
| Backend.LlamaResponse | llama3chatbotopioid.py:58-76 | A raised request error gives an answer starting with "ERROR: Failed to connect to Llama 3 instance. Details: " and ending with the error text; a returned body fails exactly when its content path holds a null or an empty list, with the matching Python exception; otherwise it gives "No response" for a missing field, or the content without stars. |
| Backend.BlankIsIrrelevant | llama3chatbotopioid.py:88-93 | a blank question mentions no topic |
| Backend.RouteQuestion | llama3chatbotopioid.py:88-96 | only a null question raises; the model is consulted, with the stripped question, exactly when the question is relevant; otherwise a blank or missing question gets the blank reply and any other question the refusal |
| Backend.Ask | llama3chatbotopioid.py:84-98 | a missing or blank question gets "Please ask a valid question."; a non-blank irrelevant one gets the fixed refusal; a relevant one gets the model's response to the stripped question |
| Backend.OnlyRelevantQuestionsReachModel | llama3chatbotopioid.py:90-96 | for a question that is not relevant, the answer does not depend on the model at all |

## Left out

- The DOM is reduced to the log's messages and the controls' state. CSS classes, scrolling and rendering are not modelled. `innerHTML` versus `textContent` is also left out: the placeholder check compares the stored text.
- Timers are events, and their durations are not modelled. The 200 ms Tab announcements fire in the order they were set. The 700 ms re-enable of the send button (`SendReenabled`) may fire at any time, even with no click before it, which allows more runs than the page has.
- The network is left out. The request body, HTTP status, JSON parsing, and an `answer` that is missing or not a string are all outside the model. The widget receives the answer as a string (`FetchOk`) or a failure (`FetchFail`).
- Audio (`playBeep`), utterance rate and language, and the recognition settings (`continuous`, `interimResults`, `lang`) appear only as effects or not at all.
- A browser's native Tab handling outside the text field, and focus changes caused by clicks, are left out. Only `Focused` events move focus there.
- Cancelling speech is assumed to drop every queued utterance without running its end handler.
- Case mapping is ASCII only. Python's `lower()` also maps non-ASCII letters, so relevance on non-ASCII text is not modelled exactly.
- The server's Flask routing, CORS, environment configuration, logging, PDF text extraction, prompt construction and the HTTP call are left out. The model is a function from the stripped question to a `LlamaCall`, and the document context is fixed at start-up.
- A request body whose `question` is neither a string, null nor missing is left out, as is a body that is not JSON. A `choices` value or a list element that is not a list or an object is also left out. So are these inputs, each of which makes the handler raise an `AttributeError` (an HTTP 500): a `message` that is not an object, a `content` that is not a string (llama3chatbotopioid.py:72), and a completion body or request body that is valid JSON but not an object (llama3chatbotopioid.py:72 and 88).
- Widget.Step: its own contract only says the capabilities never change. Each event's behaviour is stated by the handlers' contracts and the `WidgetProperties` lemmas.
- Widget.FocusControl: its contract says whether something is spoken but not what. The spoken label is stated by `WidgetProperties.FocusAnnouncesVoiceAndStop`.
- Widget.Recognizer: one session slot, `Off` or `Active`. The page builds a new recognition object on every start, so two starts give two sessions and `stop()` acts on the newest. A session that ends with neither a result nor an error stays `Active` in the model.

=== FILE: backend.dfy ===
/** The server side of one question: the `/ask` route's three-way decision,
    and how the model's completion is turned into the answer text. The model
    itself is a parameter: a call either raises a transport error or returns
    a decoded completion body. */
module Backend {
  import opened Wrappers
  import opened Strings
  import opened Relevance

  /** A JSON object field as Python's `dict.get` sees it: missing, `null`,
      or present with a value. */
  datatype Field<+T> = Absent | Null | Present(value: T)

  /** The slice of an OpenAI-style completion body the server reads:
      `choices[0].message.content`. */
  datatype ChatMessage = ChatMessage(content: Field<string>)
  datatype Choice = Choice(message: Field<ChatMessage>)
  datatype Completion = Completion(choices: Field<seq<Choice>>)

  /** The exceptions the extraction expression can raise, which the handler
      does not catch (the request then fails with a server error). */
  datatype Fault =
    | IndexError      // `choices` is an empty list
    | TypeError       // `choices` is null, and null cannot be indexed
    | AttributeError  // a `null` met where an object or string is expected

  /** What the HTTP call to the model did: raised a `RequestException`
      (connection failure, timeout, error status, undecodable body) with the
      given text, or returned a decoded body. */
  datatype LlamaCall = Raised(details: string) | Returned(body: Completion)

  const NoResponse := "No response"
  const ErrorPrefix := "ERROR: Failed to connect to Llama 3 instance. Details: "
  const BlankReply := "Please ask a valid question."
  const Refusal := "Sorry, I can only answer questions related to opioids, addiction, overdose, or withdrawal."

  /** `content.replace("*", "")`. */
  function StripStars(content: string): (r: string)
    ensures '*' !in r && |r| <= |content|
    ensures forall c :: c != '*' ==> multiset(r)[c] == multiset(content)[c]
  {
    Without(content, '*')
  }

  /** `choices[0].message.content` read strictly: `Absent` when any step of
      the path is missing, `Null` when any step is null or the list empty. */
  function FirstContent(body: Completion): Field<string> {
    match body.choices
    case Absent => Absent
    case Null => Null
    case Present(choices) =>
      if |choices| == 0 then Null
      else
        match choices[0].message
        case Absent => Absent
        case Null => Null
        case Present(m) => m.content
  }

  /** The text under `choices[0].message.content`, with every default the
      chained `get` calls supply: a missing `choices` becomes `[{}]`, a
      missing `message` becomes `{}`, a missing `content` becomes
      "No response". Nulls and an empty list raise. */
  function RawContent(body: Completion): (r: Result<string, Fault>)
    ensures r.Success? ==> r.value == NoResponse || FirstContent(body) == Present(r.value)
  {
    match body.choices
    case Absent => Success(NoResponse)
    case Null => Failure(TypeError)
    case Present(choices) =>
      if |choices| == 0 then Failure(IndexError)
      else
        match choices[0].message
        case Absent => Success(NoResponse)
        case Null => Failure(AttributeError)
        case Present(m) =>
          match m.content
          case Absent => Success(NoResponse)
          case Null => Failure(AttributeError)
          case Present(text) => Success(text)
  }

  /** The answer text the server extracts from a completion body. */
  function ExtractAnswer(body: Completion): (r: Result<string, Fault>)
    ensures r.Success? <==> RawContent(body).Success?
    ensures r.Success? ==> '*' !in r.value && |r.value| <= |RawContent(body).value|
    ensures r.Failure? ==> r.error == RawContent(body).error
  {
    match RawContent(body)
    case Success(text) => Success(StripStars(text))
    case Failure(e) => Failure(e)
  }

  /** The default text has no stars to remove. */
  lemma NoResponseKept()
    ensures StripStars(NoResponse) == NoResponse
  {
    assert '*' !in NoResponse;
    WithoutIdentity(NoResponse, '*');
  }

  /** The defaults of the `get` chain apply exactly where the path has a
      missing field, and the read raises exactly where it has a null or an
      empty list. */
  lemma RawContentOutcomes(body: Completion)
    ensures FirstContent(body).Absent? ==> RawContent(body) == Success(NoResponse)
    ensures FirstContent(body).Null? <==> RawContent(body).Failure?
    ensures FirstContent(body).Present? ==> RawContent(body) == Success(FirstContent(body).value)
  {
  }

  /** A missing `choices`, `message` or `content` field yields the default
      "No response"; a null anywhere on the path, or an empty `choices`
      list, raises; a present `content` is returned with its stars removed. */
  lemma ExtractionOutcomes(body: Completion)
    ensures FirstContent(body).Absent? ==> ExtractAnswer(body) == Success(NoResponse)
    ensures FirstContent(body).Null? <==> ExtractAnswer(body).Failure?
    ensures FirstContent(body).Present? ==> ExtractAnswer(body) == Success(StripStars(FirstContent(body).value))
  {
    RawContentOutcomes(body);
    NoResponseKept();
  }

  /** Extracting twice removes nothing more: the answer is already star-free,
      and an answer without stars is kept exactly. */
  lemma StripStarsIdempotent(content: string)
    ensures StripStars(StripStars(content)) == StripStars(content)
    ensures StripStars(content) == content <==> '*' !in content
  {
    WithoutIdempotent(content, '*');
    WithoutIdentity(content, '*');
  }

  /** Star removal works character by character and keeps the order of what
      it keeps: it distributes over concatenation, drops a lone `*` and keeps
      any other lone character. */
  lemma StripStarsKeepsOrder(a: string, b: string, c: char)
    ensures StripStars(a + b) == StripStars(a) + StripStars(b)
    ensures StripStars([c]) == (if c == '*' then [] else [c])
  {
    WithoutConcat(a, b, '*');
    assert [c][1..] == [];
  }

  /** `get_llama3_response`: a raised request error becomes an answer of its
      own, anything else is the extracted content. Only a returned body with
      a null on its content path makes the call fail. */
  function LlamaResponse(call: LlamaCall): (r: Result<string, Fault>)
    ensures r.Failure? <==> call.Returned? && FirstContent(call.body).Null?
    ensures call.Raised? ==>
      && ErrorPrefix <= r.value
      && r.value[|ErrorPrefix|..] == call.details
    ensures call.Returned? && FirstContent(call.body).Absent? ==> r == Success(NoResponse)
    ensures call.Returned? && FirstContent(call.body).Present? ==>
      r == Success(StripStars(FirstContent(call.body).value))
    ensures call.Returned? && r.Success? ==> '*' !in r.value
    ensures r.Failure? ==> r.error == (if call.body.choices.Null? then TypeError
                                       else if call.body.choices == Present([]) then IndexError
                                       else AttributeError)
  {
    match call
    case Raised(details) => Success(ErrorPrefix + details)
    case Returned(body) => ExtractionOutcomes(body); ExtractAnswer(body)
  }

  /** Where `/ask` sends a question: straight back with a fixed reply, or to
      the model with the stripped question. */
  datatype Route = Reply(text: string) | Consult(question: string)

  /** A blank question mentions no topic. */
  lemma BlankIsIrrelevant(q: string)
    requires IsBlank(Python, q)
    ensures !IsQuestionRelevant(q)
  {
    StripKeepsRelevance(q);
    assert Lower(Trim(Python, q)) == [];
  }

  /** The routing in `ask`: a missing `question` reads as "", which strips to
      blank; a null one cannot be stripped. Relevance is judged on the
      stripped text, which gives the same verdict as the raw text. */
  function RouteQuestion(question: Field<string>): (r: Result<Route, Fault>)
    ensures question.Null? <==> r.Failure?
    ensures r.Failure? ==> r.error == AttributeError
    ensures r.Success? && r.value.Consult? <==> question.Present? && IsQuestionRelevant(question.value)
    ensures r.Success? && r.value.Consult? ==> r.value.question == Trim(Python, question.value)
    ensures r.Success? && r.value.Reply? ==>
      r.value.text == (if question.Present? && !IsBlank(Python, question.value) then Refusal else BlankReply)
  {
    match question
    case Null => Failure(AttributeError)
    case Absent => Success(Reply(BlankReply))
    case Present(q) =>
      var stripped := Trim(Python, q);
      StripKeepsRelevance(q);
      assert IsBlank(Python, q) ==> !IsQuestionRelevant(q) by {
        if IsBlank(Python, q) {
          BlankIsIrrelevant(q);
        }
      }
      if stripped == [] then Success(Reply(BlankReply))
      else if IsQuestionRelevant(stripped) then Success(Consult(stripped))
      else Success(Reply(Refusal))
  }

  /** The whole `/ask` handler, given the model as a function of the stripped
      question (the document context and prompt are fixed at start-up). */
  function Ask(question: Field<string>, llama: string -> LlamaCall): (r: Result<string, Fault>)
    ensures question.Null? ==> r == Failure(AttributeError)
    ensures question.Absent? ==> r == Success(BlankReply)
    ensures question.Present? && IsBlank(Python, question.value) ==> r == Success(BlankReply)
    ensures question.Present? && !IsBlank(Python, question.value) && !IsQuestionRelevant(question.value) ==>
      r == Success(Refusal)
    ensures question.Present? && IsQuestionRelevant(question.value) ==>
      r == LlamaResponse(llama(Trim(Python, question.value)))
  {
    match RouteQuestion(question)
    case Failure(e) => Failure(e)
    case Success(Reply(text)) => Success(text)
    case Success(Consult(q)) => LlamaResponse(llama(q))
  }

  /** The model is consulted only for a relevant question: otherwise the
      answer does not depend on it at all. */
  lemma OnlyRelevantQuestionsReachModel(question: Field<string>, a: string -> LlamaCall, b: string -> LlamaCall)
    requires !(question.Present? && IsQuestionRelevant(question.value))
    ensures Ask(question, a) == Ask(question, b)
  {
  }
}

=== FILE: navigation.dfy ===
/** Keyboard focus cycling and the spoken names of the widget's controls. */
module Navigation {
  import opened Wrappers

  /** The four controls of the widget, and any other focus target. */
  datatype Control = Input | SendButton | VoiceButton | StopButton | Elsewhere

  /** The Tab cycle order: text input, send, voice, stop. */
  const Cycle: seq<Control> := [Input, SendButton, VoiceButton, StopButton]

  /** `Array.prototype.indexOf`: the first position holding `x`, or -1 when
      there is none. */
  function IndexOf<T(==)>(xs: seq<T>, x: T): (i: int)
    ensures -1 <= i < |xs|
    ensures i >= 0 ==> xs[i] == x && x !in xs[..i]
    ensures i == -1 <==> x !in xs
  {
    if xs == [] then -1
    else if xs[0] == x then 0
    else
      var j := IndexOf(xs[1..], x);
      assert xs == [xs[0]] + xs[1..];
      if j == -1 then -1
      else
        assert xs[..j + 1] == [xs[0]] + xs[1..][..j];
        j + 1
  }

  /** The quotient of JavaScript-style division, truncated toward zero. */
  function TruncatedQuotient(a: int, b: int): int
    requires b != 0
  {
    if a >= 0 then a / b else -((-a) / b)
  }

  /** JavaScript's `%`: the remainder of division truncated toward zero. It
      is smaller than the divisor in size, takes the sign of the dividend
      (or is zero), and completes the truncated quotient to the dividend; on
      a non-negative dividend it is the mathematical remainder. */
  function JsRemainder(a: int, b: int): (r: int)
    requires b != 0
    ensures (b > 0 ==> -b < r < b) && (b < 0 ==> b < r < -b)
    ensures r == 0 || (r < 0 <==> a < 0)
    ensures a == TruncatedQuotient(a, b) * b + r
    ensures a >= 0 ==> r == a % b
  {
    if a >= 0 then a % b else -((-a) % b)
  }

  /** The position after `current` in a cycle of `n` controls, where -1 stands
      for "not in the cycle". It always lands inside the cycle, and the last
      position and -1 both lead to the first. */
  function NextIndex(current: int, n: nat): (next: int)
    requires n > 0 && -1 <= current < n
    ensures 0 <= next < n
    ensures next == (if current == n - 1 then 0 else current + 1)
  {
    JsRemainder(current + 1, n)
  }

  /** handleTabKey's target: the control after the focused one in the cycle. */
  function NextControl(focused: Control): (c: Control)
    ensures c in Cycle
  {
    Cycle[NextIndex(IndexOf(Cycle, focused), |Cycle|)]
  }

  /** An independent statement of the cycle, control by control. */
  function Successor(c: Control): Control
  {
    match c
    case Input => SendButton
    case SendButton => VoiceButton
    case VoiceButton => StopButton
    case StopButton => Input
    case Elsewhere => Input
  }

  /** The index arithmetic realises the cycle input, send, voice, stop, input;
      from outside the cycle focus goes to the input. */
  lemma NextControlIsSuccessor(c: Control)
    ensures NextControl(c) == Successor(c)
  {
    assert Cycle[0] == Input && Cycle[1] == SendButton && Cycle[2] == VoiceButton && Cycle[3] == StopButton;
    match c
    case Input => assert IndexOf(Cycle, c) == 0;
    case SendButton => assert IndexOf(Cycle, c) == 1;
    case VoiceButton => assert IndexOf(Cycle, c) == 2;
    case StopButton => assert IndexOf(Cycle, c) == 3;
    case Elsewhere => assert IndexOf(Cycle, c) == -1;
  }

  /** Four Tab presses bring focus back to the control it started on. */
  lemma CycleReturns(c: Control)
    requires c in Cycle
    ensures NextControl(NextControl(NextControl(NextControl(c)))) == c
  {
    NextControlIsSuccessor(c);
    NextControlIsSuccessor(Successor(c));
    NextControlIsSuccessor(Successor(Successor(c)));
    NextControlIsSuccessor(Successor(Successor(Successor(c))));
  }

  /** speakElementText's label map. */
  function Label(c: Control): (name: Option<string>)
    ensures name.Some? <==> c in {SendButton, VoiceButton, StopButton}
  {
    match c
    case SendButton => Some("Send button.")
    case VoiceButton => Some("Voice button.")
    case StopButton => Some("Stop button.")
    case _ => None
  }

  /** The label map is one-to-one and gives the three button names. */
  lemma LabelsDistinct(a: Control, b: Control)
    ensures Label(a).Some? && Label(a) == Label(b) ==> a == b
    ensures Label(SendButton) == Some("Send button.")
    ensures Label(VoiceButton) == Some("Voice button.")
    ensures Label(StopButton) == Some("Stop button.")
    ensures Label(Input) == None && Label(Elsewhere) == None
  {
  }

  /** After a Tab press a label is announced exactly when focus lands on the
      send, voice or stop button, that is, unless it wraps to the input. */
  lemma TabAnnouncesButtonsOnly(c: Control)
    ensures Label(NextControl(c)).Some? <==> Successor(c) != Input
  {
    NextControlIsSuccessor(c);
  }
}

=== FILE: relevance.dfy ===
/** The server's topic filter: a question is relevant when, ignoring ASCII
    case, it contains one of a fixed list of opioid-related phrases. */
module Relevance {
  import opened Strings

  /** The phrases a relevant question must mention, in list order. */
  const Topics: seq<string> := [
    "opioids", "addiction", "overdose", "withdrawal", "fentanyl", "heroin",
    "painkillers", "narcotics", "opioid crisis", "naloxone", "rehab", "opiates", "opium",
    "substance abuse", "drugs"
  ]

  /** Some topic of `topics`, lowered, occurs in the already lowered text. */
  function AnyTopicIn(topics: seq<string>, lowered: string): (r: bool)
    ensures r <==> exists i :: 0 <= i < |topics| && Occurs(Lower(topics[i]), lowered)
  {
    if topics == [] then false
    else
      var r := Contains(lowered, Lower(topics[0])) || AnyTopicIn(topics[1..], lowered);
      assert forall i :: 1 <= i < |topics| ==> topics[i] == topics[1..][i - 1];
      r
  }

  /** is_question_relevant: some topic occurs in the question, both lowered. */
  function IsQuestionRelevant(question: string): (r: bool)
    ensures r <==> exists i :: 0 <= i < |Topics| && Occurs(Lower(Topics[i]), Lower(question))
  {
    AnyTopicIn(Topics, Lower(question))
  }

  /** Relevance ignores ASCII case: two questions that agree letter by letter
      up to case are relevant together or not at all. */
  lemma RelevanceIgnoresCase(a: string, b: string)
    requires |a| == |b| && forall i :: 0 <= i < |a| ==> LowerChar(a[i]) == LowerChar(b[i])
    ensures IsQuestionRelevant(a) == IsQuestionRelevant(b)
  {
    assert Lower(a) == Lower(b);
  }

  /** Shouting a question does not change its relevance. */
  lemma UppercaseKeepsRelevance(q: string)
    ensures IsQuestionRelevant(Upper(q)) == IsQuestionRelevant(q)
  {
    LowerUpper(q);
  }

  /** A relevant question stays relevant whatever text surrounds it. */
  lemma RelevanceMonotone(p: string, q: string, s: string)
    requires IsQuestionRelevant(q)
    ensures IsQuestionRelevant(p + q + s)
  {
    var i :| 0 <= i < |Topics| && Occurs(Lower(Topics[i]), Lower(q));
    LowerConcat(p, q);
    LowerConcat(p + q, s);
    OccursExtend(Lower(Topics[i]), Lower(q), Lower(p), Lower(s));
  }

  /** `needle` cannot occur in `hay` when one of its characters is missing
      from `hay`. */
  lemma AbsentChar(needle: string, hay: string, k: nat)
    requires k < |needle| && needle[k] !in hay
    ensures !Occurs(needle, hay)
  {
    forall j ensures !OccursAt(needle, hay, j) {
      if 0 <= j <= |hay| - |needle| {
        assert hay[j..j + |needle|][k] == hay[j + k];
      }
    }
  }

  /** The lowered question "What is an opioid?". */
  const OpioidQuestion: string := "what is an opioid?"

  /** "opioids" needs an 'o' six places before an 's'; the question's only
      's' is preceded by a 'w' six places earlier. */
  lemma OpioidsMissing()
    ensures !Occurs(Lower(Topics[0]), OpioidQuestion)
  {
    var h, w := OpioidQuestion, Lower(Topics[0]);
    assert w[0] == 'o' && w[6] == 's';
    forall j ensures !OccursAt(w, h, j) {
      if 0 <= j <= |h| - |w| {
        assert h[j..j + |w|][0] == h[j] && h[j..j + |w|][6] == h[j + 6];
        assert h[j] != 'o' || h[j + 6] != 's' by {
          assert j == 0 || j == 1 || j == 2 || j == 3 || j == 4 || j == 5 || j == 6
            || j == 7 || j == 8 || j == 9 || j == 10 || j == 11;
        }
      }
    }
  }

  /** Topic `i` cannot occur when its `k`-th letter is missing from the
      question. */
  lemma LetterMissing(i: nat, k: nat)
    requires i < |Topics| && k < |Topics[i]| && LowerChar(Topics[i][k]) !in OpioidQuestion
    ensures !Occurs(Lower(Topics[i]), OpioidQuestion)
  {
    AbsentChar(Lower(Topics[i]), OpioidQuestion, k);
  }

  /** Topics 1 to 4 each have a letter the question lacks. */
  lemma TopicsMissing1To4(i: nat)
    requires 1 <= i <= 4
    ensures !Occurs(Lower(Topics[i]), OpioidQuestion)
  {
    if i == 1 {
      LetterMissing(1, 4);  // 'c'
    } else if i == 2 {
      LetterMissing(2, 1);  // 'v'
    } else if i == 3 {
      LetterMissing(3, 5);  // 'r'
    } else {
      LetterMissing(4, 0);  // 'f'
    }
  }

  /** Topics 5 to 8 each have a letter the question lacks. */
  lemma TopicsMissing5To8(i: nat)
    requires 5 <= i <= 8
    ensures !Occurs(Lower(Topics[i]), OpioidQuestion)
  {
    if i == 5 {
      LetterMissing(5, 1);  // 'e'
    } else if i == 6 {
      LetterMissing(6, 4);  // 'k'
    } else if i == 7 {
      LetterMissing(7, 2);  // 'r'
    } else {
      LetterMissing(8, 7);  // 'c'
    }
  }

  /** Topics 9 to 11 each have a letter the question lacks. */
  lemma TopicsMissing9To11(i: nat)
    requires 9 <= i <= 11
    ensures !Occurs(Lower(Topics[i]), OpioidQuestion)
  {
    if i == 9 {
      LetterMissing(9, 2);  // 'l'
    } else if i == 10 {
      LetterMissing(10, 0);  // 'r'
    } else {
      LetterMissing(11, 5);  // 'e'
    }
  }

  /** Topics 12 to 14 each have a letter the question lacks. */
  lemma TopicsMissing12To14(i: nat)
    requires 12 <= i <= 14
    ensures !Occurs(Lower(Topics[i]), OpioidQuestion)
  {
    if i == 12 {
      LetterMissing(12, 3);  // 'u'
    } else if i == 13 {
      LetterMissing(13, 1);  // 'u'
    } else {
      LetterMissing(14, 1);  // 'r'
    }
  }

  /** Every topic but the first has a letter the question lacks. */
  lemma OtherTopicMissing(i: nat)
    requires 1 <= i < |Topics|
    ensures !Occurs(Lower(Topics[i]), OpioidQuestion)
  {
    if i <= 4 {
      TopicsMissing1To4(i);
    } else if i <= 8 {
      TopicsMissing5To8(i);
    } else if i <= 11 {
      TopicsMissing9To11(i);
    } else {
      TopicsMissing12To14(i);
    }
  }

  /** "What is an opioid?" is not relevant: the list has "opioids",
      "opioid crisis", "opiates" and "opium" but not "opioid". */
  lemma OpioidQuestionNotRelevant()
    ensures !IsQuestionRelevant("What is an opioid?")
  {
    assert Lower("What is an opioid?") == OpioidQuestion;
    forall i | 0 <= i < |Topics| ensures !Occurs(Lower(Topics[i]), OpioidQuestion) {
      if i == 0 {
        OpioidsMissing();
      } else {
        OtherTopicMissing(i);
      }
    }
  }

  /** An upper-case mention of a topic inside a longer question counts. */
  lemma OverdoseQuestionRelevant()
    ensures IsQuestionRelevant("How do I recognize an OVERDOSE?")
  {
    var q := "How do I recognize an OVERDOSE?";
    assert Lower(Topics[2]) == "overdose";
    assert Lower(q)[22..30] == "overdose";
    assert OccursAt(Lower(Topics[2]), Lower(q), 22);
  }

  /** Both ends of a topic are lower-case letters. */
  predicate LetterEnds(w: string) {
    |w| > 0 && 'a' <= w[0] <= 'z' && 'a' <= w[|w| - 1] <= 'z'
  }

  lemma TopicsHaveLetterEnds(i: nat)
    requires i < |Topics|
    ensures LetterEnds(Lower(Topics[i]))
  {
    var w := Topics[i];
    assert LetterEnds(w) by {
      assert i == 0 || i == 1 || i == 2 || i == 3 || i == 4 || i == 5 || i == 6 || i == 7
        || i == 8 || i == 9 || i == 10 || i == 11 || i == 12 || i == 13 || i == 14;
    }
  }

  /** White space is never a lower-case letter, before or after lowering. */
  lemma SpaceIsNotLetter(c: char)
    requires IsSpace(Python, c)
    ensures !('a' <= LowerChar(c) <= 'z')
  {
  }

  /** A match of a letter-ended phrase lies inside any blank-bordered slice
      `q[k..e]`: neither of its end letters can be white space. */
  lemma MatchInsideCore(w: string, q: string, j: int, k: nat, e: nat)
    requires LetterEnds(w) && OccursAt(w, Lower(q), j)
    requires k <= e <= |q| && IsBlank(Python, q[..k]) && IsBlank(Python, q[e..])
    ensures k <= j && j + |w| <= e
  {
    var lq := Lower(q);
    var last := j + |w| - 1;
    assert lq[j..j + |w|][0] == lq[j];
    assert lq[j..j + |w|][|w| - 1] == lq[last];
    if j < k {
      assert q[..k][j] == q[j];
      SpaceIsNotLetter(q[j]);
    }
    if last >= e {
      assert q[e..][last - e] == q[last];
      SpaceIsNotLetter(q[last]);
    }
  }

  /** Lowering commutes with slicing. */
  lemma LowerSlice(q: string, a: nat, b: nat)
    requires a <= b <= |q|
    ensures Lower(q[a..b]) == Lower(q)[a..b]
  {
  }

  /** A match inside `h[a..b]` is a match of that slice. */
  lemma OccursInSlice(w: string, h: string, j: int, a: nat, b: nat)
    requires OccursAt(w, h, j) && a <= j && j + |w| <= b <= |h|
    ensures OccursAt(w, h[a..b], j - a)
  {
    var inner, outer := h[a..b][j - a..j - a + |w|], h[j..j + |w|];
    forall x | 0 <= x < |w| ensures inner[x] == outer[x] {
    }
    assert inner == outer;
  }

  /** A topic found in a question also occurs in any blank-bordered slice
      `t == q[k..k + |t|]`, since the topic's first and last characters are
      letters, not white space. */
  lemma TopicInsideCore(q: string, i: nat, t: string, k: nat)
    requires i < |Topics| && Occurs(Lower(Topics[i]), Lower(q))
    requires k + |t| <= |q| && t == q[k..k + |t|]
    requires IsBlank(Python, q[..k]) && IsBlank(Python, q[k + |t|..])
    ensures Occurs(Lower(Topics[i]), Lower(t))
  {
    var w := Lower(Topics[i]);
    var j :| OccursAt(w, Lower(q), j);
    TopicsHaveLetterEnds(i);
    MatchInsideCore(w, q, j, k, k + |t|);
    OccursInSlice(w, Lower(q), j, k, k + |t|);
    LowerSlice(q, k, k + |t|);
    assert OccursAt(w, Lower(t), j - k);
  }

  /** Cutting blank borders off a question never changes its verdict. */
  lemma CoreKeepsRelevance(q: string, t: string, k: nat)
    requires k + |t| <= |q| && t == q[k..k + |t|]
    requires IsBlank(Python, q[..k]) && IsBlank(Python, q[k + |t|..])
    ensures IsQuestionRelevant(t) == IsQuestionRelevant(q)
  {
    assert q == q[..k] + t + q[k + |t|..];
    if IsQuestionRelevant(t) {
      RelevanceMonotone(q[..k], t, q[k + |t|..]);
    }
    if IsQuestionRelevant(q) {
      var i :| 0 <= i < |Topics| && Occurs(Lower(Topics[i]), Lower(q));
      TopicInsideCore(q, i, t, k);
    }
  }

  /** Stripping the question before the check, as the request handler does,
      never changes the verdict. */
  lemma StripKeepsRelevance(q: string)
    ensures IsQuestionRelevant(Trim(Python, q)) == IsQuestionRelevant(q)
  {
    CoreKeepsRelevance(q, Trim(Python, q), Leading(Python, q));
  }
}

=== FILE: strings.dfy ===
/** String helpers used by both halves of the widget: white-space trimming as
    JavaScript's `String.prototype.trim` and Python's `str.strip` do it, ASCII
    lower-casing, substring search, and removal of every copy of a character. */
module Strings {

  /** The two languages disagree on what counts as white space. */
  datatype Flavor = JavaScript | Python

  /** Characters both languages treat as white space: the ASCII controls TAB..CR,
      SPACE, NO-BREAK SPACE, the Unicode space separators and the line and
      paragraph separators. JavaScript adds the byte-order mark U+FEFF; Python
      adds the information separators U+001C..U+001F and NEXT LINE U+0085. */
  predicate IsSpace(f: Flavor, c: char) {
    var n := c as int;
    || (0x09 <= n <= 0x0D) || n == 0x20 || n == 0xA0 || n == 0x1680
    || (0x2000 <= n <= 0x200A) || n == 0x2028 || n == 0x2029
    || n == 0x202F || n == 0x205F || n == 0x3000
    || (f == JavaScript && n == 0xFEFF)
    || (f == Python && ((0x1C <= n <= 0x1F) || n == 0x85))
  }

  /** Every character of `s` is white space (the empty string included). */
  predicate IsBlank(f: Flavor, s: string) {
    forall i :: 0 <= i < |s| ==> IsSpace(f, s[i])
  }

  /** Drops leading white space: the result is the suffix of `s` that starts at
      the first non-space character. */
  function TrimStart(f: Flavor, s: string): (r: string)
    ensures |r| <= |s| && r == s[|s| - |r|..]
    ensures IsBlank(f, s[..|s| - |r|])
    ensures r == [] || !IsSpace(f, r[0])
  {
    if |s| > 0 && IsSpace(f, s[0]) then
      var r := TrimStart(f, s[1..]);
      assert s[..|s| - |r|] == [s[0]] + s[1..][..|s[1..]| - |r|];
      r
    else
      s
  }

  /** Drops trailing white space: the result is the prefix of `s` that ends at
      the last non-space character. */
  function TrimEnd(f: Flavor, s: string): (r: string)
    ensures |r| <= |s| && r == s[..|r|]
    ensures IsBlank(f, s[|r|..])
    ensures r == [] || !IsSpace(f, r[|r| - 1])
  {
    if |s| > 0 && IsSpace(f, s[|s| - 1]) then
      var r := TrimEnd(f, s[..|s| - 1]);
      assert s[|r|..] == s[..|s| - 1][|r|..] + [s[|s| - 1]];
      r
    else
      s
  }

  /** Number of leading white-space characters of `s`. */
  function Leading(f: Flavor, s: string): nat
  {
    |s| - |TrimStart(f, s)|
  }

  /** Both ends trimmed, as `text.trim()` in JavaScript and `text.strip()` in
      Python: the result is the slice of `s` between the white space it drops,
      and it is empty exactly when `s` is blank. */
  function Trim(f: Flavor, s: string): (r: string)
    ensures Leading(f, s) + |r| <= |s|
    ensures r == s[Leading(f, s)..Leading(f, s) + |r|]
    ensures IsBlank(f, s[..Leading(f, s)]) && IsBlank(f, s[Leading(f, s) + |r|..])
    ensures r == [] <==> IsBlank(f, s)
    ensures r == [] || (!IsSpace(f, r[0]) && !IsSpace(f, r[|r| - 1]))
  {
    var a := TrimStart(f, s);
    var r := TrimEnd(f, a);
    TrimSlices(f, s, a, r, Leading(f, s));
    r
  }

  /** The facts behind `Trim`'s contract: `s` splits as a blank prefix of
      length `k`, the kept slice `r`, and a blank tail. */
  lemma TrimSlices(f: Flavor, s: string, a: string, r: string, k: nat)
    requires k <= |s| && a == s[k..] && IsBlank(f, s[..k])
    requires |r| <= |a| && r == a[..|r|] && IsBlank(f, a[|r|..])
    requires r == [] || !IsSpace(f, r[|r| - 1])
    ensures k + |r| <= |s|
    ensures r == s[k..k + |r|]
    ensures IsBlank(f, s[k + |r|..])
    ensures r == [] <==> IsBlank(f, s)
  {
    assert s == s[..k] + a;
    assert s[k + |r|..] == a[|r|..];
    if IsBlank(f, s) {
      BlankSlice(f, s, k, |s|);
      assert s[k..|s|] == a;
    }
    if r == [] {
      assert a[|r|..] == a;
      BlankConcat(f, s[..k], a);
    }
  }

  /** Every slice of a blank string is blank. */
  lemma BlankSlice(f: Flavor, s: string, i: nat, j: nat)
    requires IsBlank(f, s) && i <= j <= |s|
    ensures IsBlank(f, s[i..j])
  {
    forall k | 0 <= k < j - i ensures IsSpace(f, s[i..j][k]) { assert s[i..j][k] == s[i + k]; }
  }

  /** Two blank strings concatenate to a blank string. */
  lemma BlankConcat(f: Flavor, a: string, b: string)
    requires IsBlank(f, a) && IsBlank(f, b)
    ensures IsBlank(f, a + b)
  {
    forall k | 0 <= k < |a + b| ensures IsSpace(f, (a + b)[k]) {
      if k < |a| { assert (a + b)[k] == a[k]; } else { assert (a + b)[k] == b[k - |a|]; }
    }
  }

  /** ASCII lower-casing of one character; every other character is kept. */
  function LowerChar(c: char): char
  {
    if 'A' <= c <= 'Z' then (c as int + 32) as char else c
  }

  /** ASCII upper-casing of one character; every other character is kept. */
  function UpperChar(c: char): char
  {
    if 'a' <= c <= 'z' then (c as int - 32) as char else c
  }

  /** `s.lower()` restricted to ASCII letters: same length, each character
      lowered, and no upper-case ASCII letter left. */
  function Lower(s: string): (r: string)
    ensures |r| == |s|
    ensures forall i :: 0 <= i < |s| ==> r[i] == LowerChar(s[i])
    ensures forall i :: 0 <= i < |r| ==> !('A' <= r[i] <= 'Z')
  {
    seq(|s|, i requires 0 <= i < |s| => LowerChar(s[i]))
  }

  /** ASCII upper-casing of a whole string, used to state that re-casing a
      question does not change its relevance. */
  function Upper(s: string): (r: string)
    ensures |r| == |s|
    ensures forall i :: 0 <= i < |s| ==> r[i] == UpperChar(s[i])
  {
    seq(|s|, i requires 0 <= i < |s| => UpperChar(s[i]))
  }

  /** Lower-casing distributes over concatenation. */
  lemma LowerConcat(a: string, b: string)
    ensures Lower(a + b) == Lower(a) + Lower(b)
  {
  }

  /** Lower-casing after upper-casing equals lower-casing. */
  lemma LowerUpper(s: string)
    ensures Lower(Upper(s)) == Lower(s)
  {
  }

  /** `needle` appears in `hay` starting at index `i`. */
  predicate OccursAt(needle: string, hay: string, i: int) {
    0 <= i <= |hay| - |needle| && hay[i..i + |needle|] == needle
  }

  /** `needle` appears in `hay` as a contiguous slice. */
  ghost predicate Occurs(needle: string, hay: string) {
    exists i :: OccursAt(needle, hay, i)
  }

  /** Python's `needle in hay` for strings, searched left to right. */
  function Contains(hay: string, needle: string): (r: bool)
    ensures r <==> Occurs(needle, hay)
    decreases |hay|
  {
    if needle <= hay then
      assert OccursAt(needle, hay, 0);
      true
    else if |hay| <= |needle| then
      assert forall i :: !OccursAt(needle, hay, i);
      false
    else
      var r := Contains(hay[1..], needle);
      OccursShift(needle, hay);
      r
  }

  /** When `needle` is not a prefix of `hay`, it occurs in `hay` exactly when it
      occurs in `hay` without its first character. */
  lemma OccursShift(needle: string, hay: string)
    requires |hay| > 0 && !(needle <= hay)
    ensures Occurs(needle, hay) <==> Occurs(needle, hay[1..])
  {
    if Occurs(needle, hay[1..]) {
      var i :| OccursAt(needle, hay[1..], i);
      assert OccursAt(needle, hay, i + 1);
    }
    if Occurs(needle, hay) {
      var i :| OccursAt(needle, hay, i);
      assert i != 0 by { assert hay[..|needle|] == hay[0..|needle|]; }
      assert OccursAt(needle, hay[1..], i - 1);
    }
  }

  /** An occurrence survives adding text on either side. */
  lemma OccursExtend(needle: string, hay: string, p: string, s: string)
    requires Occurs(needle, hay)
    ensures Occurs(needle, p + hay + s)
  {
    var i :| OccursAt(needle, hay, i);
    assert OccursAt(needle, p + hay + s, |p| + i);
  }

  /** `s` with every copy of `c` removed, as Python's `s.replace(c, "")`:
      `c` no longer occurs, and every other character keeps its count. */
  function Without(s: string, c: char): (r: string)
    ensures c !in r
    ensures |r| <= |s|
    ensures forall x :: x != c ==> multiset(r)[x] == multiset(s)[x]
  {
    if s == [] then []
    else
      assert s == [s[0]] + s[1..];
      (if s[0] == c then [] else [s[0]]) + Without(s[1..], c)
  }

  /** Removal works piecewise: it distributes over concatenation. Together with
      its action on one character this determines `Without` completely. */
  lemma {:induction false} WithoutConcat(a: string, b: string, c: char)
    ensures Without(a + b, c) == Without(a, c) + Without(b, c)
  {
    if a == [] {
      assert a + b == b;
    } else {
      assert (a + b)[1..] == a[1..] + b;
      WithoutConcat(a[1..], b, c);
    }
  }

  /** Removing a character that is absent changes nothing, and only then. */
  lemma {:induction false} WithoutIdentity(s: string, c: char)
    ensures Without(s, c) == s <==> c !in s
  {
    if s != [] {
      WithoutIdentity(s[1..], c);
      assert s == [s[0]] + s[1..];
    }
  }

  /** Removing twice is removing once. */
  lemma WithoutIdempotent(s: string, c: char)
    ensures Without(Without(s, c), c) == Without(s, c)
  {
    WithoutIdentity(Without(s, c), c);
  }
}

=== FILE: transcript.dfy ===
/** The chat log the widget shows: an ordered list of messages, appended to at
    the end, from which only a trailing "Thinking..." placeholder is ever
    removed. */
module Transcript {

  datatype Sender = User | Bot

  /** One rendered message; its text is what the page shows as its content. */
  datatype Message = Message(sender: Sender, text: string)

  /** Placeholder shown while a reply is awaited. */
  const ThinkingText := "Thinking..."
  /** Bot message that, in voice mode, arms speech recognition. */
  const ListeningText := "Listening..."
  /** Bot message shown when the request for an answer fails. */
  const FetchErrorText := "Error: Could not get a response."
  /** Bot message shown when speech recognition reports an error. */
  const ApologyText := "Sorry, I couldn't hear you. Please try again."

  /** The placeholder message itself. */
  const Placeholder := Message(Bot, ThinkingText)

  /** The last message is the placeholder. */
  predicate EndsWithPlaceholder(log: seq<Message>) {
    |log| > 0 && log[|log| - 1] == Placeholder
  }

  /** removePreviousThinkingMessage: the last message goes exactly when it is a
      bot message reading "Thinking..."; otherwise the log is left as it is.
      Nothing before the last message is ever touched. */
  function RemovePlaceholder(log: seq<Message>): (r: seq<Message>)
    ensures r <= log && |log| - 1 <= |r|
    ensures |r| < |log| <==> EndsWithPlaceholder(log)
  {
    if EndsWithPlaceholder(log) then log[..|log| - 1] else log
  }

  /** Positions `i - 1` and `i` both hold the placeholder. */
  predicate PlaceholderPair(log: seq<Message>, i: int) {
    0 < i < |log| && log[i - 1] == Placeholder && log[i] == Placeholder
  }

  /** No two placeholders stand side by side anywhere in the log. */
  ghost predicate Separated(log: seq<Message>) {
    forall i :: !PlaceholderPair(log, i)
  }

  /** Removal is idempotent exactly when the log does not end with two
      placeholders; in particular on every log whose placeholders are
      separated. */
  lemma RemovePlaceholderIdempotent(log: seq<Message>)
    ensures RemovePlaceholder(RemovePlaceholder(log)) == RemovePlaceholder(log)
        <==> !PlaceholderPair(log, |log| - 1)
    ensures Separated(log) ==> RemovePlaceholder(RemovePlaceholder(log)) == RemovePlaceholder(log)
  {
    if PlaceholderPair(log, |log| - 1) {
      assert log[..|log| - 1][|log| - 2] == Placeholder;
    }
  }

  /** Right after a user message has been appended, the removal finds nothing
      to remove. */
  lemma RemoveAfterUserMessage(log: seq<Message>, text: string)
    ensures RemovePlaceholder(log + [Message(User, text)]) == log + [Message(User, text)]
  {
  }

  /** The only ways the log changes: messages are appended, possibly after the
      trailing placeholder was removed. Earlier messages are never edited. */
  predicate Extends(before: seq<Message>, after: seq<Message>) {
    before <= after || (EndsWithPlaceholder(before) && before[..|before| - 1] <= after)
  }
}

=== FILE: widget.dfy ===
/** The browser side of the chat widget as a transition system: every event
    handler of the page becomes one case of `Step`, which maps the current
    state and an incoming event to the next state and the effects the page
    issues (speech, beep, recognition, alert, request). Browser services are
    represented only by those effects and by the events they send back. */
module Widget {
  import opened Strings
  import opened Transcript
  import opened Navigation

  /** Which browser speech services exist; fixed for the life of the page. */
  datatype Caps = Caps(synthesis: bool, recognition: bool)

  /** What happens when an utterance finishes. Announcements of controls carry
      no handler; speakResponse's utterances clear the speaking flag, and the
      voice-mode "Listening..." utterance then also beeps and starts
      recognition. */
  datatype OnEnd = NoHandler | ClearSpeaking | ClearSpeakingThenListen

  datatype Utterance = Utterance(text: string, onEnd: OnEnd)

  datatype Recognizer = Off | Active

  /** A question sent to the server whose reply has not come back; `useVoice`
      is the flag captured when it was sent. */
  datatype Request = Request(question: string, useVoice: bool)

  datatype State = State(
    caps: Caps,
    transcript: seq<Message>,
    input: string,              // the text field's value
    focus: Control,             // the focused element
    sendDisabled: bool,         // the send button's disabled attribute
    usingVoice: bool,
    isSpeaking: bool,
    speech: seq<Utterance>,     // the synthesizer's queue; the head is being spoken
    recognizer: Recognizer,
    pending: seq<Request>,
    announcements: seq<Control>) // Tab announcements whose 200 ms timer has not fired

  datatype Effect =
    | Spoke(text: string)
    | CancelledSpeech
    | Beeped
    | StartedRecognition
    | StoppedRecognition
    | Alerted(text: string)
    | Posted(question: string)

  /** User actions, browser callbacks and timers. `FetchOk` and `FetchFail`
      settle the pending request at position `slot`; `AnnounceTimer` is the
      oldest Tab announcement timer firing. */
  datatype Event =
    | Typed(text: string)
    | SendClick
    | EnterKey
    | TabKey
    | VoiceClick
    | StopClick
    | SpeechEnd
    | RecognitionResult(heard: string)
    | RecognitionError
    | FetchOk(slot: nat, answer: string)
    | FetchFail(slot: nat)
    | Focused(control: Control)
    | SendReenabled
    | AnnounceTimer

  datatype Transition = Transition(next: State, effects: seq<Effect>)

  const UnsupportedText := "Voice recognition is not supported in this browser."

  /** The page right after it loaded. */
  function Initial(caps: Caps): State
  {
    State(caps, [], [], Elsewhere, false, false, false, [], Off, [], [])
  }

  /** Two transitions one after the other. */
  function Then(t: Transition, u: Transition): Transition
  {
    Transition(u.next, t.effects + u.effects)
  }

  /** speakResponse: with synthesis available the text is queued with the
      handler that clears the speaking flag (and, for the "Listening..." call,
      then starts listening), and the flag is raised; without it nothing
      happens and no handler will ever run. */
  function SpeakResponse(s: State, text: string, thenListen: bool): (t: Transition)
    ensures s.caps.synthesis ==>
      && t.next.isSpeaking && t.effects == [Spoke(text)]
      && t.next.speech == s.speech + [Utterance(text, if thenListen then ClearSpeakingThenListen else ClearSpeaking)]
    ensures !s.caps.synthesis ==> t == Transition(s, [])
    ensures t.next == s.(isSpeaking := t.next.isSpeaking, speech := t.next.speech)
  {
    if s.caps.synthesis then
      var u := Utterance(text, if thenListen then ClearSpeakingThenListen else ClearSpeaking);
      Transition(s.(speech := s.speech + [u], isSpeaking := true), [Spoke(text)])
    else
      Transition(s, [])
  }

  /** speakElementText: a labelled control's name is queued without a handler;
      the speaking flag is left alone. Unlabelled controls say nothing. */
  function SpeakElementText(s: State, c: Control): (t: Transition)
    ensures t.effects != [] <==> s.caps.synthesis && Label(c).Some?
    ensures t.effects != [] ==>
      && t.effects == [Spoke(Label(c).value)]
      && t.next.speech == s.speech + [Utterance(Label(c).value, NoHandler)]
    ensures t.effects == [] ==> t.next == s
    ensures t.next == s.(speech := t.next.speech)
  {
    if s.caps.synthesis then
      match Label(c)
      case Some(text) => Transition(s.(speech := s.speech + [Utterance(text, NoHandler)]), [Spoke(text)])
      case None => Transition(s, [])
    else
      Transition(s, [])
  }

  /** stopSpeaking: cancels only while the flag is up; cancelling empties the
      synthesizer's queue and runs no end handler. */
  function StopSpeaking(s: State): (t: Transition)
    ensures s.isSpeaking ==> !t.next.isSpeaking && t.next.speech == [] && t.effects == [CancelledSpeech]
    ensures !s.isSpeaking ==> t == Transition(s, [])
    ensures t.next == s.(isSpeaking := t.next.isSpeaking, speech := t.next.speech)
  {
    if s.isSpeaking then Transition(s.(speech := [], isSpeaking := false), [CancelledSpeech])
    else Transition(s, [])
  }

  /** startVoiceRecognition: a one-shot session starts when the browser has
      recognition; otherwise the user gets an alert and nothing else changes. */
  function StartVoiceRecognition(s: State): (t: Transition)
    ensures |t.effects| == 1
    ensures StartedRecognition in t.effects <==> s.caps.recognition
    ensures t.next.recognizer == Active <==> s.caps.recognition || s.recognizer == Active
    ensures !s.caps.recognition ==> t.next == s && t.effects[0].Alerted?
    ensures t.next == s.(recognizer := t.next.recognizer)
  {
    if s.caps.recognition then Transition(s.(recognizer := Active), [StartedRecognition])
    else Transition(s, [Alerted(UnsupportedText)])
  }

  /** The voice-mode trigger inside appendMessage. */
  predicate ArmsListening(s: State, sender: Sender, text: string) {
    sender == Bot && s.usingVoice && text == ListeningText
  }

  /** appendMessage: the message goes at the end of the log. A bot
      "Listening..." appended in voice mode is also spoken, with recognition
      chained to the end of that utterance; nothing else is affected. */
  function AppendMessage(s: State, sender: Sender, text: string): (t: Transition)
    ensures t.next.transcript == s.transcript + [Message(sender, text)]
    ensures t.next == s.(transcript := t.next.transcript, isSpeaking := t.next.isSpeaking, speech := t.next.speech)
    ensures t.effects != [] <==> ArmsListening(s, sender, text) && s.caps.synthesis
    ensures t.effects != [] ==>
      && t.effects == [Spoke(ListeningText)] && t.next.isSpeaking
      && t.next.speech == s.speech + [Utterance(ListeningText, ClearSpeakingThenListen)]
    ensures t.effects == [] ==> t.next.speech == s.speech && t.next.isSpeaking == s.isSpeaking
  {
    var s1 := s.(transcript := s.transcript + [Message(sender, text)]);
    if ArmsListening(s, sender, text) then SpeakResponse(s1, text, true)
    else Transition(s1, [])
  }

  /** sendMessage(text, useVoice). A blank text changes nothing. Otherwise the
      user's message and the placeholder are appended, the field is cleared,
      the placeholder is spoken in voice mode, and the question is posted and
      recorded as pending with the captured voice flag. */
  function SendMessage(s: State, text: string, useVoice: bool): (t: Transition)
    ensures IsBlank(JavaScript, text) ==> t == Transition(s, [])
    ensures !IsBlank(JavaScript, text) ==>
      && t.next.transcript == s.transcript + [Message(User, text), Placeholder]
      && t.next.input == []
      && t.next.pending == s.pending + [Request(text, useVoice)]
      && t.next.usingVoice == s.usingVoice
      && t.next.recognizer == s.recognizer
      && t.next.sendDisabled == s.sendDisabled
      && t.next.speech == (if useVoice && s.caps.synthesis then s.speech + [Utterance(ThinkingText, ClearSpeaking)] else s.speech)
      && t.effects == (if useVoice && s.caps.synthesis then [Spoke(ThinkingText)] else []) + [Posted(text)]
    ensures !IsBlank(JavaScript, text) ==>
      t.next == s.(transcript := t.next.transcript, input := [], pending := t.next.pending, speech := t.next.speech,
                   isSpeaking := s.isSpeaking || (useVoice && s.caps.synthesis))
  {
    // `!text.trim()`: by Trim's contract the trimmed text is empty exactly
    // when the text is blank.
    if IsBlank(JavaScript, text) then
      Transition(s, [])
    else
      var t1 := AppendMessage(s, User, text);
      assert t1.effects == [];
      var log := s.transcript + [Message(User, text)];
      assert t1.next == s.(transcript := log);
      RemoveAfterUserMessage(s.transcript, text);
      assert log + [Placeholder] == s.transcript + [Message(User, text), Placeholder];
      var s2 := t1.next.(input := [], transcript := RemovePlaceholder(log) + [Placeholder]);
      var t3 := if useVoice then SpeakResponse(s2, ThinkingText, false) else Transition(s2, []);
      Then(t1, Transition(t3.next.(pending := t3.next.pending + [Request(text, useVoice)]), t3.effects + [Posted(text)]))
  }

  /** Settling the request at `slot` (a `.then` or `.catch` continuation)
      begins by forgetting it and removing a trailing placeholder. */
  function Settle(s: State, slot: nat): (r: State)
    requires slot < |s.pending|
    ensures r.pending == s.pending[..slot] + s.pending[slot + 1..]
    ensures r == s.(pending := r.pending, transcript := RemovePlaceholder(s.transcript))
  {
    s.(pending := s.pending[..slot] + s.pending[slot + 1..], transcript := RemovePlaceholder(s.transcript))
  }

  /** The reply continuation: remove the placeholder, append the answer, and
      speak it when the request was sent in voice mode. An answer reading
      "Listening..." in voice mode is also spoken by appendMessage first, with
      recognition chained to it. */
  function ReplyArrived(s: State, slot: nat, answer: string): (t: Transition)
    ensures slot >= |s.pending| ==> t == Transition(s, [])
    ensures slot < |s.pending| ==>
      && t.next.transcript == RemovePlaceholder(s.transcript) + [Message(Bot, answer)]
      && t.next.pending == s.pending[..slot] + s.pending[slot + 1..]
    ensures slot < |s.pending| ==>
      var arms := ArmsListening(s, Bot, answer) && s.caps.synthesis;
      var voiced := s.pending[slot].useVoice && s.caps.synthesis;
      && t.next.speech == s.speech + (if arms then [Utterance(ListeningText, ClearSpeakingThenListen)] else [])
                                   + (if voiced then [Utterance(answer, ClearSpeaking)] else [])
      && t.effects == (if arms then [Spoke(ListeningText)] else []) + (if voiced then [Spoke(answer)] else [])
      && t.next.isSpeaking == (s.isSpeaking || arms || voiced)
    ensures slot < |s.pending| ==>
      t.next == s.(transcript := t.next.transcript, pending := t.next.pending, speech := t.next.speech,
                   isSpeaking := t.next.isSpeaking)
  {
    if slot >= |s.pending| then Transition(s, [])
    else
      var useVoice := s.pending[slot].useVoice;
      var t2 := AppendMessage(Settle(s, slot), Bot, answer);
      Then(t2, if useVoice then SpeakResponse(t2.next, answer, false) else Transition(t2.next, []))
  }

  /** The failure continuation: remove the placeholder and append the fixed
      error message, which is never spoken. */
  function RequestFailed(s: State, slot: nat): (t: Transition)
    ensures slot >= |s.pending| ==> t == Transition(s, [])
    ensures slot < |s.pending| ==>
      && t.next.transcript == RemovePlaceholder(s.transcript) + [Message(Bot, FetchErrorText)]
      && t.next.pending == s.pending[..slot] + s.pending[slot + 1..]
      && t.effects == []
      && t.next.speech == s.speech && t.next.isSpeaking == s.isSpeaking
    ensures slot < |s.pending| ==> t.next == s.(transcript := t.next.transcript, pending := t.next.pending)
  {
    if slot >= |s.pending| then Transition(s, [])
    else AppendMessage(Settle(s, slot), Bot, FetchErrorText)
  }

  /** The head utterance finished: it leaves the queue and its handler, if
      any, runs exactly then. */
  function UtteranceEnded(s: State): (t: Transition)
    ensures s.speech == [] ==> t == Transition(s, [])
    ensures s.speech != [] ==> t.next.speech == s.speech[1..]
    ensures s.speech != [] && s.speech[0].onEnd != ClearSpeakingThenListen ==>
      t.effects == [] && t.next.recognizer == s.recognizer
    ensures s.speech != [] ==>
      t.next.isSpeaking == (if s.speech[0].onEnd == NoHandler then s.isSpeaking else false)
    ensures t.next == s.(speech := t.next.speech, isSpeaking := t.next.isSpeaking, recognizer := t.next.recognizer)
    ensures StartedRecognition in t.effects <==>
      s.speech != [] && s.speech[0].onEnd == ClearSpeakingThenListen && s.caps.recognition
  {
    if s.speech == [] then Transition(s, [])
    else
      var s1 := s.(speech := s.speech[1..]);
      match s.speech[0].onEnd
      case NoHandler => Transition(s1, [])
      case ClearSpeaking => Transition(s1.(isSpeaking := false), [])
      case ClearSpeakingThenListen =>
        Then(Transition(s1.(isSpeaking := false), [Beeped]), StartVoiceRecognition(s1.(isSpeaking := false)))
  }

  /** recognition.onresult: the heard text is sent in voice mode, then the
      session is stopped and voice mode is switched off. */
  function Heard(s: State, text: string): (t: Transition)
    ensures s.recognizer == Off ==> t == Transition(s, [])
    ensures s.recognizer == Active ==>
      && t.next.recognizer == Off && !t.next.usingVoice
      && t.next.transcript == SendMessage(s, text, true).next.transcript
      && t.effects == SendMessage(s, text, true).effects + [StoppedRecognition]
    ensures s.recognizer == Active ==> t.next == SendMessage(s, text, true).next.(recognizer := Off, usingVoice := false)
  {
    if s.recognizer == Off then Transition(s, [])
    else
      var t := SendMessage(s, text, true);
      Transition(t.next.(recognizer := Off, usingVoice := false), t.effects + [StoppedRecognition])
  }

  /** recognition.onerror: an apology is appended and voice mode ends. */
  function NotHeard(s: State): (t: Transition)
    ensures s.recognizer == Off ==> t == Transition(s, [])
    ensures s.recognizer == Active ==>
      && t.next.transcript == s.transcript + [Message(Bot, ApologyText)]
      && t.next.recognizer == Off && !t.next.usingVoice
      && t.effects == [] && t.next.speech == s.speech
    ensures s.recognizer == Active ==> t.next == s.(transcript := t.next.transcript, recognizer := Off, usingVoice := false)
  {
    if s.recognizer == Off then Transition(s, [])
    else
      var t := AppendMessage(s, Bot, ApologyText);
      Transition(t.next.(recognizer := Off, usingVoice := false), t.effects)
  }

  /** Focus arriving at a control: the voice and stop buttons announce
      themselves. */
  function FocusControl(s: State, c: Control): (t: Transition)
    ensures t.next == s.(focus := c, speech := t.next.speech)
    ensures t.effects != [] <==> s.caps.synthesis && (c == VoiceButton || c == StopButton)
    ensures t.effects == [] ==> t.next.speech == s.speech
  {
    var s1 := s.(focus := c);
    if c == VoiceButton || c == StopButton then SpeakElementText(s1, c) else Transition(s1, [])
  }

  /** A disabled control cannot take focus: `focus()` on it does nothing.
      Only the send button is ever disabled. */
  predicate Focusable(s: State, c: Control) {
    !(c == SendButton && s.sendDisabled)
  }

  /** handleTabKey: focus moves to the next control of the cycle (running that
      control's focus handler) unless that control is disabled, in which case
      focus stays where it is; either way the control's label is due 200 ms
      later. */
  function HandleTab(s: State): (t: Transition)
    ensures t.next.focus == (if Focusable(s, Successor(s.focus)) then Successor(s.focus) else s.focus)
    ensures t.next.announcements == s.announcements + [Successor(s.focus)]
    ensures !Focusable(s, Successor(s.focus)) ==>
      t == Transition(s.(announcements := s.announcements + [Successor(s.focus)]), [])
    ensures Focusable(s, Successor(s.focus)) ==>
      && t == FocusControl(s, Successor(s.focus)).(next := t.next)
      && t.next == FocusControl(s, Successor(s.focus)).next.(announcements := t.next.announcements)
  {
    NextControlIsSuccessor(s.focus);
    var c := NextControl(s.focus);
    var t1 := if Focusable(s, c) then FocusControl(s, c) else Transition(s, []);
    Transition(t1.next.(announcements := t1.next.announcements + [c]), t1.effects)
  }

  /** The oldest Tab announcement timer fires: that control's label is
      spoken, wherever focus is by now. */
  function Announce(s: State): (t: Transition)
    ensures s.announcements == [] ==> t == Transition(s, [])
    ensures s.announcements != [] ==>
      && t.next.announcements == s.announcements[1..]
      && t == SpeakElementText(s, s.announcements[0]).(next := t.next)
      && t.next == SpeakElementText(s, s.announcements[0]).next.(announcements := s.announcements[1..])
  {
    if s.announcements == [] then Transition(s, [])
    else SpeakElementText(s.(announcements := s.announcements[1..]), s.announcements[0])
  }

  /** The send button's click handler. A disabled button receives no click;
      otherwise the button is disabled and the field's text is sent without
      voice. */
  function ClickSend(s: State): (t: Transition)
    ensures t.next.sendDisabled
    ensures s.sendDisabled ==> t == Transition(s, [])
    ensures !s.sendDisabled && IsBlank(JavaScript, s.input) ==> t == Transition(s.(sendDisabled := true), [])
    ensures !s.sendDisabled && !IsBlank(JavaScript, s.input) ==>
      && t.effects == [Posted(s.input)]
      && t.next.transcript == s.transcript + [Message(User, s.input), Placeholder]
      && t.next.pending == s.pending + [Request(s.input, false)]
      && t.next.input == [] && t.next.speech == s.speech
    ensures !s.sendDisabled && !IsBlank(JavaScript, s.input) ==>
      t.next == s.(sendDisabled := true, transcript := t.next.transcript, input := [], pending := t.next.pending)
  {
    if s.sendDisabled then Transition(s, [])
    else SendMessage(s.(sendDisabled := true), s.input, false)
  }

  /** One event handled. The browser's capabilities never change. */
  function Step(s: State, e: Event): (t: Transition)
    ensures t.next.caps == s.caps
  {
    match e
    case Typed(text) => Transition(s.(input := text), [])
    case SendClick => ClickSend(s)
    case EnterKey => if s.focus == Input then ClickSend(s) else Transition(s, [])
    case TabKey => if s.focus == Input then HandleTab(s) else Transition(s, [])
    case VoiceClick => AppendMessage(s.(usingVoice := true), Bot, ListeningText)
    case StopClick => StopSpeaking(s)
    case SpeechEnd => UtteranceEnded(s)
    case RecognitionResult(text) => Heard(s, text)
    case RecognitionError => NotHeard(s)
    case FetchOk(slot, answer) => ReplyArrived(s, slot, answer)
    case FetchFail(slot) => RequestFailed(s, slot)
    case Focused(c) => if Focusable(s, c) then FocusControl(s, c) else Transition(s, [])
    case SendReenabled => Transition(s.(sendDisabled := false), [])
    case AnnounceTimer => Announce(s)
  }

  /** A run of events, effects collected in order. */
  function Run(s: State, events: seq<Event>): (t: Transition)
    ensures t.next.caps == s.caps
    decreases |events|
  {
    if events == [] then Transition(s, [])
    else Then(Step(s, events[0]), Run(Step(s, events[0]).next, events[1..]))
  }
}

=== FILE: widget_properties.dfy ===
/** What the widget's event handlers guarantee, stated over `Widget.Step`. */
module WidgetProperties {
  import opened Strings
  import opened Transcript
  import opened Navigation
  import opened Widget

  // ---------------------------------------------------------------------------
  // Invariants of every reachable state

  /** Only the "Listening..." utterance carries the handler that starts
      recognition. */
  predicate ListenHandlersSayListening(q: seq<Utterance>) {
    forall i :: 0 <= i < |q| && q[i].onEnd == ClearSpeakingThenListen ==> q[i].text == ListeningText
  }

  /** The invariant kept by every event. */
  ghost predicate Valid(s: State) {
    ListenHandlersSayListening(s.speech) && Separated(s.transcript)
  }

  lemma QueueAppend(q: seq<Utterance>, u: Utterance)
    requires ListenHandlersSayListening(q)
    requires u.onEnd == ClearSpeakingThenListen ==> u.text == ListeningText
    ensures ListenHandlersSayListening(q + [u])
  {
    assert forall i :: 0 <= i < |q| ==> (q + [u])[i] == q[i];
  }

  lemma QueueTail(q: seq<Utterance>)
    requires ListenHandlersSayListening(q) && q != []
    ensures ListenHandlersSayListening(q[1..])
  {
    assert forall i :: 0 <= i < |q| - 1 ==> q[1..][i] == q[i + 1];
  }

  /** A prefix of a log with separated placeholders has them separated. */
  lemma PrefixSeparated(log: seq<Message>, k: nat)
    requires Separated(log) && k <= |log|
    ensures Separated(log[..k])
  {
    forall i ensures !PlaceholderPair(log[..k], i) {
      if 0 < i < k {
        assert log[..k][i - 1] == log[i - 1] && log[..k][i] == log[i];
        assert !PlaceholderPair(log, i);
      }
    }
  }

  /** Appending keeps placeholders separated unless a placeholder follows
      one. */
  lemma AppendSeparated(log: seq<Message>, m: Message)
    requires Separated(log)
    requires !(EndsWithPlaceholder(log) && m == Placeholder)
    ensures Separated(log + [m])
  {
    var l := log + [m];
    forall i ensures !PlaceholderPair(l, i) {
      if 0 < i < |log| {
        assert l[i - 1] == log[i - 1] && l[i] == log[i];
        assert !PlaceholderPair(log, i);
      } else if i == |log| && i > 0 {
        assert l[i - 1] == log[|log| - 1] && l[i] == m;
      }
    }
  }

  /** Removing the trailing placeholder and appending a bot reply keeps
      placeholders separated, even when the reply itself reads
      "Thinking...". */
  lemma ReplySeparated(log: seq<Message>, m: Message)
    requires Separated(log)
    ensures Separated(RemovePlaceholder(log) + [m])
  {
    var r := RemovePlaceholder(log);
    PrefixSeparated(log, |r|);
    assert log[..|r|] == r;
    if EndsWithPlaceholder(log) {
      assert !PlaceholderPair(log, |log| - 1);
      assert !EndsWithPlaceholder(r) by {
        if |r| > 0 { assert r[|r| - 1] == log[|log| - 2]; }
      }
    }
    AppendSeparated(r, m);
  }

  lemma SpeakResponseValid(s: State, text: string, thenListen: bool)
    requires Valid(s) && (thenListen ==> text == ListeningText)
    ensures Valid(SpeakResponse(s, text, thenListen).next)
  {
    if s.caps.synthesis {
      QueueAppend(s.speech, Utterance(text, if thenListen then ClearSpeakingThenListen else ClearSpeaking));
    }
  }

  lemma AppendMessageValid(s: State, sender: Sender, text: string)
    requires Valid(s) && !(EndsWithPlaceholder(s.transcript) && Message(sender, text) == Placeholder)
    ensures Valid(AppendMessage(s, sender, text).next)
  {
    AppendSeparated(s.transcript, Message(sender, text));
    var s1 := s.(transcript := s.transcript + [Message(sender, text)]);
    if ArmsListening(s, sender, text) {
      SpeakResponseValid(s1, ListeningText, true);
    }
  }

  lemma SendMessageValid(s: State, text: string, useVoice: bool)
    requires Valid(s)
    ensures Valid(SendMessage(s, text, useVoice).next)
  {
    if !IsBlank(JavaScript, text) {
      var t := SendMessage(s, text, useVoice);
      AppendSeparated(s.transcript, Message(User, text));
      AppendSeparated(s.transcript + [Message(User, text)], Placeholder);
      assert s.transcript + [Message(User, text)] + [Placeholder] == t.next.transcript;
      if useVoice && s.caps.synthesis {
        QueueAppend(s.speech, Utterance(ThinkingText, ClearSpeaking));
      }
    }
  }

  lemma ReplyArrivedValid(s: State, slot: nat, answer: string)
    requires Valid(s)
    ensures Valid(ReplyArrived(s, slot, answer).next)
  {
    if slot < |s.pending| {
      var s1 := Settle(s, slot);
      ReplySeparated(s.transcript, Message(Bot, answer));
      var t2 := AppendMessage(s1, Bot, answer);
      if ArmsListening(s1, Bot, answer) {
        SpeakResponseValid(s1.(transcript := t2.next.transcript), ListeningText, true);
      }
      assert Valid(t2.next);
      if s.pending[slot].useVoice {
        SpeakResponseValid(t2.next, answer, false);
      }
    }
  }

  lemma UtteranceEndedValid(s: State)
    requires Valid(s)
    ensures Valid(UtteranceEnded(s).next)
  {
    if s.speech != [] {
      QueueTail(s.speech);
    }
  }

  lemma FocusValid(s: State, c: Control)
    requires Valid(s)
    ensures Valid(FocusControl(s, c).next)
    ensures Valid(SpeakElementText(s, c).next)
  {
    if s.caps.synthesis && Label(c).Some? {
      QueueAppend(s.speech, Utterance(Label(c).value, NoHandler));
      QueueAppend(s.(focus := c).speech, Utterance(Label(c).value, NoHandler));
    }
  }

  /** Every event keeps the invariant. */
  lemma StepPreservesValid(s: State, e: Event)
    requires Valid(s)
    ensures Valid(Step(s, e).next)
  {
    match e
    case Typed(text) =>
    case SendClick => SendMessageValid(s.(sendDisabled := true), s.input, false);
    case EnterKey => SendMessageValid(s.(sendDisabled := true), s.input, false);
    case TabKey =>
      if s.focus == Input {
        FocusValid(s, Successor(s.focus));
      }
    case VoiceClick => AppendMessageValid(s.(usingVoice := true), Bot, ListeningText);
    case StopClick =>
    case SpeechEnd => UtteranceEndedValid(s);
    case RecognitionResult(text) => SendMessageValid(s, text, true);
    case RecognitionError => AppendMessageValid(s, Bot, ApologyText);
    case FetchOk(slot, answer) => ReplyArrivedValid(s, slot, answer);
    case FetchFail(slot) =>
      if slot < |s.pending| {
        ReplySeparated(s.transcript, Message(Bot, FetchErrorText));
      }
    case Focused(c) => FocusValid(s, c);
    case SendReenabled =>
    case AnnounceTimer =>
      if s.announcements != [] {
        FocusValid(s.(announcements := s.announcements[1..]), s.announcements[0]);
      }
  }

  /** Every state reachable from a freshly loaded page satisfies the
      invariant. */
  lemma {:induction false} RunPreservesValid(s: State, events: seq<Event>)
    requires Valid(s)
    ensures Valid(Run(s, events).next)
    decreases |events|
  {
    if events != [] {
      StepPreservesValid(s, events[0]);
      RunPreservesValid(Step(s, events[0]).next, events[1..]);
    }
  }

  /** The freshly loaded page satisfies the invariant, so by
      `RunPreservesValid` every reachable page does. */
  lemma InitialValid(caps: Caps)
    ensures Valid(Initial(caps))
  {
  }

  /** In every reachable state removing the placeholder is idempotent. */
  lemma ReachableRemovalIdempotent(caps: Caps, events: seq<Event>)
    ensures var log := Run(Initial(caps), events).next.transcript;
      RemovePlaceholder(RemovePlaceholder(log)) == RemovePlaceholder(log)
  {
    RunPreservesValid(Initial(caps), events);
    RemovePlaceholderIdempotent(Run(Initial(caps), events).next.transcript);
  }

  // ---------------------------------------------------------------------------
  // The transcript

  /** Messages are never edited: every event only appends, after at most
      removing the trailing placeholder. */
  lemma StepExtendsTranscript(s: State, e: Event)
    ensures Extends(s.transcript, Step(s, e).next.transcript)
  {
    match e
    case TabKey =>
      if s.focus == Input { assert HandleTab(s).next.transcript == s.transcript; }
    case FetchOk(slot, answer) =>
      if slot < |s.pending| {
        assert RemovePlaceholder(s.transcript) <= Step(s, e).next.transcript;
      }
    case FetchFail(slot) =>
      if slot < |s.pending| {
        assert RemovePlaceholder(s.transcript) <= Step(s, e).next.transcript;
      }
    case SpeechEnd =>
      assert UtteranceEnded(s).next.transcript == s.transcript;
    case SendClick =>
      assert s.transcript <= Step(s, e).next.transcript;
    case EnterKey =>
      assert s.transcript <= Step(s, e).next.transcript;
    case RecognitionResult(heard) =>
      assert s.transcript <= Step(s, e).next.transcript;
    case _ =>
  }

  // ---------------------------------------------------------------------------
  // Sending

  /** sendMessage does nothing at all exactly when the text is blank. */
  lemma BlankSendIgnored(s: State, text: string, useVoice: bool)
    ensures SendMessage(s, text, useVoice) == Transition(s, []) <==> IsBlank(JavaScript, text)
  {
    if !IsBlank(JavaScript, text) {
      assert |SendMessage(s, text, useVoice).next.transcript| == |s.transcript| + 2;
    }
  }

  /** Clicking send with a blank field only disables the button. */
  lemma BlankClickOnlyDisables(s: State)
    requires !s.sendDisabled && IsBlank(JavaScript, s.input)
    ensures Step(s, SendClick) == Transition(s.(sendDisabled := true), [])
  {
  }

  /** Enter in the text field is a click on the send button. */
  lemma EnterIsSendClick(s: State)
    requires s.focus == Input
    ensures Step(s, EnterKey) == Step(s, SendClick)
  {
  }

  /** A typed turn that succeeds: the log gains exactly the question and the
      answer, the placeholder is gone, the request is settled, and (unless the
      answer is itself a voice-mode "Listening...") nothing is spoken. */
  lemma TypedTurn(s: State, answer: string)
    requires !s.sendDisabled && !IsBlank(JavaScript, s.input)
    ensures var t1 := Step(s, SendClick);
      var t2 := Step(t1.next, FetchOk(|s.pending|, answer));
      && t1.effects == [Posted(s.input)]
      && t2.next.transcript == s.transcript + [Message(User, s.input), Message(Bot, answer)]
      && t2.next.pending == s.pending
      && (!ArmsListening(t1.next, Bot, answer) ==> t2.next.speech == s.speech && t2.effects == [])
  {
    var t1 := Step(s, SendClick);
    var log := s.transcript + [Message(User, s.input)];
    assert t1.next.transcript == log + [Placeholder];
    assert RemovePlaceholder(t1.next.transcript) == log;
    assert t1.next.pending[..|s.pending|] == s.pending;
  }

  /** A typed turn that fails: the log gains the question and the fixed error
      message, and the error is not spoken. */
  lemma FailedTurn(s: State)
    requires !s.sendDisabled && !IsBlank(JavaScript, s.input)
    ensures var t1 := Step(s, SendClick);
      var t2 := Step(t1.next, FetchFail(|s.pending|));
      && t2.next.transcript == s.transcript + [Message(User, s.input), Message(Bot, FetchErrorText)]
      && t2.next.pending == s.pending
      && t2.effects == [] && t2.next.speech == s.speech
  {
    var t1 := Step(s, SendClick);
    var log := s.transcript + [Message(User, s.input)];
    assert t1.next.transcript == log + [Placeholder];
    assert RemovePlaceholder(t1.next.transcript) == log;
    assert t1.next.pending[..|s.pending|] == s.pending;
  }

  /** A failed request is never spoken, whatever state it arrives in. */
  lemma ErrorsNeverSpoken(s: State, slot: nat)
    ensures Step(s, FetchFail(slot)).effects == []
    ensures Step(s, FetchFail(slot)).next.speech == s.speech
    ensures Step(s, FetchFail(slot)).next.isSpeaking == s.isSpeaking
  {
  }

  /** What a reply does to the log and the pending requests, whatever it
      says. */
  lemma ReplyLog(s: State, slot: nat, answer: string)
    requires slot < |s.pending|
    ensures var t := Step(s, FetchOk(slot, answer));
      && t.next.transcript == RemovePlaceholder(s.transcript) + [Message(Bot, answer)]
      && t.next.pending == s.pending[..slot] + s.pending[slot + 1..]
  {
    var s1 := Settle(s, slot);
    assert AppendMessage(s1, Bot, answer).next.pending == s1.pending;
  }

  /** Running two event sequences one after the other ends where running
      their concatenation does. */
  lemma {:induction false} RunAppend(s: State, a: seq<Event>, b: seq<Event>)
    ensures Run(s, a + b).next == Run(Run(s, a).next, b).next
    decreases |a|
  {
    if a == [] {
      assert a + b == b;
    } else {
      assert (a + b)[0] == a[0] && (a + b)[1..] == a[1..] + b;
      RunAppend(Step(s, a[0]).next, a[1..], b);
    }
  }

  /** Typing `q` and clicking send. */
  lemma TypeAndSend(s: State, q: string)
    requires !s.sendDisabled && !IsBlank(JavaScript, q)
    ensures var r := Run(s, [Typed(q), SendClick]).next;
      && r.transcript == s.transcript + [Message(User, q), Placeholder]
      && r.pending == s.pending + [Request(q, false)]
  {
    var s0 := Step(s, Typed(q)).next;
    assert s0 == s.(input := q);
    assert [Typed(q), SendClick][1..] == [SendClick];
    assert Run(s0, [SendClick]).next == Step(s0, SendClick).next;
  }

  /** The send button's timer fires; then typing `q` and clicking send. */
  lemma ReenableTypeAndSend(s: State, q: string)
    requires !IsBlank(JavaScript, q)
    ensures var r := Run(s, [SendReenabled, Typed(q), SendClick]).next;
      && r.transcript == s.transcript + [Message(User, q), Placeholder]
      && r.pending == s.pending + [Request(q, false)]
  {
    var s0 := Step(s, SendReenabled).next;
    assert s0 == s.(sendDisabled := false);
    assert [SendReenabled, Typed(q), SendClick][1..] == [Typed(q), SendClick];
    TypeAndSend(s0, q);
  }

  /** Two replies, both settling the request at position `n`. */
  lemma TwoReplies(s: State, n: nat, a1: string, a2: string)
    requires n + 1 < |s.pending|
    ensures var r := Run(s, [FetchOk(n, a1), FetchOk(n, a2)]).next;
      r.transcript == RemovePlaceholder(RemovePlaceholder(s.transcript) + [Message(Bot, a1)]) + [Message(Bot, a2)]
  {
    ReplyLog(s, n, a1);
    var s1 := Step(s, FetchOk(n, a1)).next;
    ReplyLog(s1, n, a2);
    assert [FetchOk(n, a1), FetchOk(n, a2)][1..] == [FetchOk(n, a2)];
    assert Run(s1, [FetchOk(n, a2)]).next == Step(s1, FetchOk(n, a2)).next;
  }

  /** Two questions typed and sent, the button re-enabled in between. */
  lemma SendTwice(s: State, q1: string, q2: string)
    requires !s.sendDisabled && !IsBlank(JavaScript, q1) && !IsBlank(JavaScript, q2)
    ensures var r := Run(s, [Typed(q1), SendClick, SendReenabled, Typed(q2), SendClick]).next;
      && r.transcript == s.transcript + [Message(User, q1), Placeholder, Message(User, q2), Placeholder]
      && r.pending == s.pending + [Request(q1, false), Request(q2, false)]
  {
    var e1 := [Typed(q1), SendClick];
    var e2 := [SendReenabled, Typed(q2), SendClick];
    assert [Typed(q1), SendClick, SendReenabled, Typed(q2), SendClick] == e1 + e2;
    RunAppend(s, e1, e2);
    TypeAndSend(s, q1);
    var m := Run(s, e1).next;
    ReenableTypeAndSend(m, q2);
    TwoTurnsAdd(s, m, Run(m, e2).next, q1, q2);
  }

  /** A state two sends further on than `s` holds both questions and both
      requests, in order. */
  lemma TwoTurnsAdd(s: State, m: State, r: State, q1: string, q2: string)
    requires m.transcript == s.transcript + [Message(User, q1), Placeholder]
    requires m.pending == s.pending + [Request(q1, false)]
    requires r.transcript == m.transcript + [Message(User, q2), Placeholder]
    requires r.pending == m.pending + [Request(q2, false)]
    ensures r.transcript == s.transcript + [Message(User, q1), Placeholder, Message(User, q2), Placeholder]
    ensures r.pending == s.pending + [Request(q1, false), Request(q2, false)]
  {
  }

  /** After two overlapping sends, the log ends with the second question's
      placeholder, and the two replies settling position `n` leave the first
      placeholder behind the first question. */
  lemma RepliesAfterTwoSends(s2: State, log: seq<Message>, n: nat, a1: string, a2: string)
    requires n + 1 < |s2.pending|
    requires s2.transcript == log + [Placeholder]
    requires a1 != ThinkingText
    ensures Run(s2, [FetchOk(n, a1), FetchOk(n, a2)]).next.transcript == log + [Message(Bot, a1), Message(Bot, a2)]
  {
    TwoReplies(s2, n, a1, a2);
    assert RemovePlaceholder(s2.transcript) == log;
    assert RemovePlaceholder(log + [Message(Bot, a1)]) == log + [Message(Bot, a1)];
  }

  /** Two sends in flight at once: the first reply removes the second
      question's placeholder, so the first one is stranded in the log. */
  lemma OverlappingSendsStrandPlaceholder(s: State, q1: string, q2: string, a1: string, a2: string)
    requires !s.sendDisabled && !IsBlank(JavaScript, q1) && !IsBlank(JavaScript, q2)
    requires a1 != ThinkingText
    ensures var n := |s.pending|;
      var r := Run(s, [Typed(q1), SendClick, SendReenabled, Typed(q2), SendClick, FetchOk(n, a1), FetchOk(n, a2)]).next;
      && r.transcript == s.transcript + [Message(User, q1), Placeholder, Message(User, q2), Message(Bot, a1), Message(Bot, a2)]
      && Placeholder in r.transcript
  {
    var n := |s.pending|;
    var e12 := [Typed(q1), SendClick, SendReenabled, Typed(q2), SendClick];
    var e3 := [FetchOk(n, a1), FetchOk(n, a2)];
    assert [Typed(q1), SendClick, SendReenabled, Typed(q2), SendClick, FetchOk(n, a1), FetchOk(n, a2)] == e12 + e3;
    RunAppend(s, e12, e3);
    SendTwice(s, q1, q2);
    var s2 := Run(s, e12).next;
    var log := s.transcript + [Message(User, q1), Placeholder, Message(User, q2)];
    assert s2.transcript == log + [Placeholder];
    RepliesAfterTwoSends(s2, log, n, a1, a2);
    var r := Run(s2, e3).next;
    assert r.transcript[|s.transcript| + 1] == Placeholder;
  }

  // ---------------------------------------------------------------------------
  // Speech

  /** Stop while silent changes nothing. */
  lemma StopWhenSilentIsNoop(s: State)
    requires !s.isSpeaking
    ensures Step(s, StopClick) == Transition(s, [])
  {
  }

  /** Stop while speaking lowers the flag and empties the queue, so no end
      handler of a cancelled utterance ever runs: a following SpeechEnd does
      nothing. */
  lemma StopCancelsHandlers(s: State)
    requires s.isSpeaking
    ensures var t := Step(s, StopClick);
      && !t.next.isSpeaking && t.next.speech == [] && t.effects == [CancelledSpeech]
      && t.next.transcript == s.transcript && t.next.recognizer == s.recognizer
      && t.next.pending == s.pending && t.next.usingVoice == s.usingVoice
      && Step(t.next, SpeechEnd) == Transition(t.next, [])
  {
  }

  /** When the "Listening..." utterance ends the flag drops, the beep plays
      and recognition starts, once: the utterance has left the queue. */
  lemma ListeningEndStartsRecognition(s: State)
    requires s.speech != [] && s.speech[0].onEnd == ClearSpeakingThenListen
    ensures var t := Step(s, SpeechEnd);
      && !t.next.isSpeaking && t.next.speech == s.speech[1..]
      && (s.caps.recognition ==> t.effects == [Beeped, StartedRecognition] && t.next.recognizer == Active)
      && (!s.caps.recognition ==> t.effects == [Beeped, Alerted(UnsupportedText)] && t.next.recognizer == s.recognizer)
  {
  }

  /** The voice button sets voice mode and appends "Listening..."; recognition
      is not started yet, only queued behind that utterance. */
  lemma VoiceClickArmsListening(s: State)
    ensures var t := Step(s, VoiceClick);
      && t.next.usingVoice
      && t.next.transcript == s.transcript + [Message(Bot, ListeningText)]
      && t.next.recognizer == s.recognizer
      && StartedRecognition !in t.effects
      && (s.caps.synthesis ==>
            t.next.isSpeaking
            && t.next.speech == s.speech + [Utterance(ListeningText, ClearSpeakingThenListen)])
  {
  }

  /** Effects that neither start recognition nor do anything but speak or
      post. */
  predicate Quiet(effects: seq<Effect>) {
    forall i :: 0 <= i < |effects| ==> effects[i].Spoke? || effects[i].Posted? || effects[i].StoppedRecognition?
  }

  lemma QuietConcat(a: seq<Effect>, b: seq<Effect>)
    requires Quiet(a) && Quiet(b)
    ensures Quiet(a + b)
  {
    assert forall i :: 0 <= i < |a| ==> (a + b)[i] == a[i];
    assert forall i :: |a| <= i < |a + b| ==> (a + b)[i] == b[i - |a|];
  }

  lemma AppendMessageQuiet(s: State, sender: Sender, text: string)
    ensures Quiet(AppendMessage(s, sender, text).effects)
  {
  }

  lemma SendMessageQuiet(s: State, text: string, useVoice: bool)
    ensures Quiet(SendMessage(s, text, useVoice).effects)
  {
  }

  lemma ReplyArrivedQuiet(s: State, slot: nat, answer: string)
    ensures Quiet(ReplyArrived(s, slot, answer).effects)
  {
    if slot < |s.pending| {
      var t2 := AppendMessage(Settle(s, slot), Bot, answer);
      AppendMessageQuiet(Settle(s, slot), Bot, answer);
      var t3 := if s.pending[slot].useVoice then SpeakResponse(t2.next, answer, false) else Transition(t2.next, []);
      QuietConcat(t2.effects, t3.effects);
    }
  }

  lemma HandleTabQuiet(s: State)
    ensures Quiet(HandleTab(s).effects)
  {
  }

  lemma SendClickQuiet(s: State)
    ensures Quiet(ClickSend(s).effects)
  {
    SendMessageQuiet(s.(sendDisabled := true), s.input, false);
  }

  lemma HeardQuiet(s: State, text: string)
    ensures Quiet(Heard(s, text).effects)
  {
    SendMessageQuiet(s, text, true);
    QuietConcat(SendMessage(s, text, true).effects, [StoppedRecognition]);
  }

  /** Quiet effects never start recognition. */
  lemma QuietNoStart(effects: seq<Effect>)
    requires Quiet(effects)
    ensures StartedRecognition !in effects
  {
  }

  /** No event but the end of an utterance starts recognition. */
  lemma OnlySpeechEndStartsRecognition(s: State, e: Event)
    requires e != SpeechEnd
    ensures StartedRecognition !in Step(s, e).effects
  {
    match e
    case SendClick => SendClickQuiet(s); QuietNoStart(ClickSend(s).effects);
    case EnterKey => SendClickQuiet(s); QuietNoStart(ClickSend(s).effects);
    case TabKey => HandleTabQuiet(s); QuietNoStart(HandleTab(s).effects);
    case VoiceClick =>
      AppendMessageQuiet(s.(usingVoice := true), Bot, ListeningText);
      QuietNoStart(AppendMessage(s.(usingVoice := true), Bot, ListeningText).effects);
    case RecognitionResult(text) => HeardQuiet(s, text); QuietNoStart(Heard(s, text).effects);
    case RecognitionError => AppendMessageQuiet(s, Bot, ApologyText); QuietNoStart(NotHeard(s).effects);
    case FetchOk(slot, answer) =>
      ReplyArrivedQuiet(s, slot, answer);
      QuietNoStart(ReplyArrived(s, slot, answer).effects);
    case FetchFail(slot) =>
    case Focused(c) =>
    case Typed(_) =>
    case StopClick =>
    case SendReenabled =>
    case AnnounceTimer =>
  }

  /** Recognition starts only from the end of the "Listening..." utterance. */
  lemma RecognitionOnlyAfterListening(s: State, e: Event)
    requires Valid(s)
    ensures StartedRecognition in Step(s, e).effects ==>
      e == SpeechEnd && s.speech != [] && s.speech[0] == Utterance(ListeningText, ClearSpeakingThenListen)
  {
    if e != SpeechEnd {
      OnlySpeechEndStartsRecognition(s, e);
    }
  }

  /** What a recognised utterance does to the parts of the state a turn
      touches. */
  lemma HeardShape(s: State, heard: string)
    requires s.recognizer == Active && !IsBlank(JavaScript, heard)
    ensures var t := Heard(s, heard);
      && t.next.transcript == s.transcript + [Message(User, heard), Placeholder]
      && t.next.pending == s.pending + [Request(heard, true)]
      && !t.next.usingVoice && t.next.recognizer == Off
      && t.next.caps == s.caps
      && (s.caps.synthesis ==>
            && t.effects == [Spoke(ThinkingText), Posted(heard), StoppedRecognition]
            && t.next.speech == s.speech + [Utterance(ThinkingText, ClearSpeaking)])
  {
  }

  /** What a reply does to the parts of the state a turn touches: it is
      spoken exactly when its request captured the voice flag. */
  lemma ReplyShape(s: State, slot: nat, answer: string)
    requires slot < |s.pending| && !ArmsListening(s, Bot, answer)
    ensures var t := ReplyArrived(s, slot, answer);
      && t.next.transcript == RemovePlaceholder(s.transcript) + [Message(Bot, answer)]
      && t.next.pending == s.pending[..slot] + s.pending[slot + 1..]
      && t.next.usingVoice == s.usingVoice && t.next.recognizer == s.recognizer
      && t.next.sendDisabled == s.sendDisabled
      && (s.pending[slot].useVoice && s.caps.synthesis ==>
            && t.effects == [Spoke(answer)] && t.next.isSpeaking
            && t.next.speech == s.speech + [Utterance(answer, ClearSpeaking)])
      && (!(s.pending[slot].useVoice && s.caps.synthesis) ==>
            t.effects == [] && t.next.speech == s.speech && t.next.isSpeaking == s.isSpeaking)
  {
    var s1 := Settle(s, slot);
    assert AppendMessage(s1, Bot, answer) == Transition(s1.(transcript := s1.transcript + [Message(Bot, answer)]), []);
  }

  /** A recognised utterance produces the same log entries and the same
      request as typing that text and clicking send; only the captured voice
      flag differs. */
  lemma VoiceMatchesTyped(s: State, heard: string)
    requires s.recognizer == Active && !s.sendDisabled
    ensures var v := Step(s, RecognitionResult(heard)).next;
      var k := Step(s.(input := heard), SendClick).next;
      && v.transcript == k.transcript
      && (!IsBlank(JavaScript, heard) ==>
            && v.pending == s.pending + [Request(heard, true)]
            && k.pending == s.pending + [Request(heard, false)])
  {
    var v := Heard(s, heard).next;
    var k := SendMessage(s.(input := heard, sendDisabled := true), heard, false).next;
    assert Step(s.(input := heard), SendClick).next == k;
    if !IsBlank(JavaScript, heard) {
      HeardShape(s, heard);
    }
  }

  /** A spoken turn: the log gains the heard text and the answer, voice mode
      ends, and both the placeholder and the answer are spoken because the
      request captured the voice flag before it was cleared. */
  lemma VoiceTurn(s: State, heard: string, answer: string)
    requires s.recognizer == Active && !IsBlank(JavaScript, heard)
    ensures var t1 := Step(s, RecognitionResult(heard));
      var t2 := Step(t1.next, FetchOk(|s.pending|, answer));
      && t2.next.transcript == s.transcript + [Message(User, heard), Message(Bot, answer)]
      && t2.next.pending == s.pending
      && !t2.next.usingVoice && t2.next.recognizer == Off
      && (s.caps.synthesis ==>
            && t1.effects == [Spoke(ThinkingText), Posted(heard), StoppedRecognition]
            && t2.effects == [Spoke(answer)] && t2.next.isSpeaking
            && t2.next.speech == s.speech + [Utterance(ThinkingText, ClearSpeaking), Utterance(answer, ClearSpeaking)])
  {
    var n := |s.pending|;
    var t1 := Step(s, RecognitionResult(heard));
    assert t1 == Heard(s, heard);
    HeardShape(s, heard);
    var log := s.transcript + [Message(User, heard)];
    assert t1.next.transcript == log + [Placeholder];
    assert RemovePlaceholder(t1.next.transcript) == log;
    assert t1.next.pending[..n] == s.pending;
    assert t1.next.pending[n + 1..] == [];
    assert !ArmsListening(t1.next, Bot, answer);
    var t2 := Step(t1.next, FetchOk(n, answer));
    assert t2 == ReplyArrived(t1.next, n, answer);
    ReplyShape(t1.next, n, answer);
    assert log + [Message(Bot, answer)] == s.transcript + [Message(User, heard), Message(Bot, answer)];
  }

  /** Recognition errors append the apology, end voice mode and speak
      nothing. */
  lemma RecognitionErrorApologises(s: State)
    requires s.recognizer == Active
    ensures var t := Step(s, RecognitionError);
      && t.next.transcript == s.transcript + [Message(Bot, ApologyText)]
      && !t.next.usingVoice && t.next.recognizer == Off
      && t.effects == [] && t.next.speech == s.speech
  {
  }

  /** The "Listening..." trigger looks only at the text: in voice mode an
      answer reading "Listening..." arms recognition like the voice button. */
  lemma ListeningAnswerArmsRecognition(s: State, slot: nat)
    requires slot < |s.pending| && s.usingVoice && s.caps.synthesis && !s.pending[slot].useVoice
    ensures var t := Step(s, FetchOk(slot, ListeningText));
      t.next.speech == s.speech + [Utterance(ListeningText, ClearSpeakingThenListen)]
  {
  }

  // ---------------------------------------------------------------------------
  // Focus

  /** Tab in the text field moves focus to the send button, which has no
      focus handler; while the button is disabled it cannot take focus, so
      focus stays in the field. Nothing is spoken yet either way, and
      "Send button." is due when the announcement timer fires. */
  lemma TabFromInput(s: State)
    requires s.focus == Input
    ensures var t := Step(s, TabKey);
      && t.next.focus == (if s.sendDisabled then Input else SendButton)
      && t.effects == []
      && t.next.speech == s.speech
      && t.next.announcements == s.announcements + [SendButton]
  {
  }

  /** Typing `q` in the focused field and pressing Enter sends it, leaves
      focus in the field and disables the button. */
  lemma TypeAndEnter(s: State, q: string)
    requires s.focus == Input && !s.sendDisabled && !IsBlank(JavaScript, q)
    ensures var r := Run(s, [Typed(q), EnterKey]).next;
      && r.focus == Input && r.sendDisabled
      && r.pending == s.pending + [Request(q, false)]
  {
    var s0 := Step(s, Typed(q)).next;
    assert [Typed(q), EnterKey][1..] == [EnterKey];
    assert Run(s0, [EnterKey]).next == Step(s0, EnterKey).next;
  }

  /** Tab while the button is disabled changes neither focus nor the pending
      requests. */
  lemma BlockedTab(s: State)
    requires s.focus == Input && s.sendDisabled
    ensures var r := Run(s, [TabKey]).next;
      && r.focus == Input && r.pending == s.pending
  {
    TabFromInput(s);
    assert Run(s, [TabKey]).next == Step(s, TabKey).next;
  }

  /** The button's timer fires, then typing `q` and pressing Enter in the
      still-focused field sends it. */
  lemma ReenableTypeAndEnter(s: State, q: string)
    requires s.focus == Input && !IsBlank(JavaScript, q)
    ensures var r := Run(s, [SendReenabled, Typed(q), EnterKey]).next;
      && r.focus == Input
      && r.pending == s.pending + [Request(q, false)]
  {
    var s0 := Step(s, SendReenabled).next;
    assert [SendReenabled, Typed(q), EnterKey][1..] == [Typed(q), EnterKey];
    TypeAndEnter(s0, q);
  }

  /** Tab pressed while the send button is still disabled after Enter leaves
      focus in the field, so a second Enter still sends. */
  lemma EnterAfterBlockedTab(s: State, q1: string, q2: string)
    requires s.focus == Input && !s.sendDisabled
    requires !IsBlank(JavaScript, q1) && !IsBlank(JavaScript, q2)
    ensures var r := Run(s, [Typed(q1), EnterKey, TabKey, SendReenabled, Typed(q2), EnterKey]).next;
      && r.focus == Input
      && r.pending == s.pending + [Request(q1, false), Request(q2, false)]
  {
    var e1 := [Typed(q1), EnterKey];
    var e2 := [TabKey];
    var e3 := [SendReenabled, Typed(q2), EnterKey];
    assert [Typed(q1), EnterKey, TabKey, SendReenabled, Typed(q2), EnterKey] == e1 + (e2 + e3);
    RunAppend(s, e1, e2 + e3);
    TypeAndEnter(s, q1);
    var m1 := Run(s, e1).next;
    RunAppend(m1, e2, e3);
    BlockedTab(m1);
    var m2 := Run(m1, e2).next;
    ReenableTypeAndEnter(m2, q2);
    assert m2.pending + [Request(q2, false)] == s.pending + [Request(q1, false), Request(q2, false)];
  }

  /** The announcement timer speaks the label of the control Tab moved to,
      even when focus has moved on since. */
  lemma AnnounceSpeaksLabel(s: State)
    requires s.announcements != [] && s.caps.synthesis && Label(s.announcements[0]).Some?
    ensures var t := Step(s, AnnounceTimer);
      var name := Label(s.announcements[0]).value;
      && t.effects == [Spoke(name)]
      && t.next.speech == s.speech + [Utterance(name, NoHandler)]
      && t.next.announcements == s.announcements[1..]
      && t.next.focus == s.focus && t.next.isSpeaking == s.isSpeaking
  {
  }

  /** A Tab announcement is not cancelled by Stop: Stop pressed while the
      timer runs leaves the announcement due, and it is then spoken. */
  lemma StopBeforeAnnouncement(s: State)
    requires s.focus == Input && s.caps.synthesis
    ensures var t1 := Step(s, TabKey);
      var t2 := Step(t1.next, StopClick);
      var t3 := Step(t2.next, AnnounceTimer);
      && t2.next.announcements == s.announcements + [SendButton]
      && (s.announcements == [] ==>
            t3.effects == [Spoke("Send button.")] && t3.next.speech == t2.next.speech + [Utterance("Send button.", NoHandler)])
  {
    NextControlIsSuccessor(Input);
    var t1 := Step(s, TabKey);
    var t2 := Step(t1.next, StopClick);
    assert t2.next.announcements == t1.next.announcements;
    if s.announcements == [] {
      AnnounceSpeaksLabel(t2.next);
    }
  }

  /** Focus announces a control exactly when it is the voice or stop button,
      and then says its label once. A disabled send button takes no focus. */
  lemma FocusAnnouncesVoiceAndStop(s: State, c: Control)
    ensures var t := Step(s, Focused(c));
      && t.next.focus == (if Focusable(s, c) then c else s.focus)
      && (!Focusable(s, c) ==> t == Transition(s, []))
      && (s.caps.synthesis && (c == VoiceButton || c == StopButton) ==>
            && t.effects == [Spoke(Label(c).value)]
            && t.next.speech == s.speech + [Utterance(Label(c).value, NoHandler)])
      && (!(s.caps.synthesis && (c == VoiceButton || c == StopButton)) ==> t.effects == [] && t.next.speech == s.speech)
  {
  }
}

=== FILE: wrappers.dfy ===
/** Optional values and results with an error side, shared by the other modules. */
module Wrappers {

  /** A value that may be missing. */
  datatype Option<+T> = None | Some(value: T)

  /** Either a value or the error that took its place. */
  datatype Result<+T, +E> = Success(value: T) | Failure(error: E)
}
